=== FILE: README.md ===
# D-ID Studio Pro: the talk submission and polling core, in Dafny

D-ID Studio Pro is a Gradio front end for the D-ID "talks" API. Clicking
"Create Talk" runs the generator `create_talk`. It builds a JSON request body
from the twelve form inputs, sends `POST /talks`, and then polls
`GET /talks/{id}`. Polling goes on until the talk reaches a terminal status
or 300 seconds pass. Each `yield` updates the six output components: talk id,
status, result URL, video preview, download status and the debug log. The
form also has URL guards that run before any network call: the avatar-image
check, the MP3-audio check and the download check.

The Dafny project models this core as pure functions.

- `options.dfy` (`Options`): the `Option` type.
- `text.dfy` (`Text`): the few Python `str` operations the core uses.
  - `strip` and ASCII `lower`.
  - Substring tests.
  - Decimal rendering.
- `json.dfy` (`Json`): JSON values and Python dicts.
  - Dicts are ordered lists of bindings. The request dicts the model builds bind each key once, and service responses are taken as given.
  - Truthiness, `get`, the `None`-dropping comprehension and `d[k] = v`.
  - `json.dumps(..., indent=2)` and `str()` of a value.
- `payload.dfy` (`Payload`): the body builder as written (app.py:350-376). Next to it:
  - a typed `JobRequest` with one variant per script type;
  - its encoder and decoder.
  - The lemmas prove three things:
    - the builder is the encoder applied to the form's request;
    - the body decodes back to that request;
    - every key is present exactly when the source puts it there.
- `poller.dfy` (`Poller`): the whole `create_talk` generator as a function `CreateTalk(apiKey, form, env)`.
  - It returns the list of updates and the number of polls.
  - `env` stands for the remote service and the clock:
    - the response to the create call;
    - the response to the n-th poll;
    - the elapsed time at the n-th test of the loop condition.
  - `Clocked(env)` states what `time.sleep(2)` guarantees: each reading of the clock is at least two seconds after the one before. So one run starts at most 150 polls.
  - Next to the loop are reference definitions, each written without the loop:
    - `StopsAt`: which polls a run makes.
    - `ReportsPolls`: what each progress update carries.
    - `FinalOf`: what the last update is.
    - `LogAt`: the accumulated log.
  - The lemmas connect these definitions to the loop.
- `guards.dfy` (`Guards`): `validate_image_url`, `validate_audio_url` and `download_video`. The network response, the clock reading and the set of files on disk are parameters.

Some behaviour of the code worth knowing, each fact stated by a lemma where one applies:
- "rejected" is not a terminal status: the loop keeps polling (`Poller.OtherStatusKeepsPolling`, `Poller.RejectedIsNotTerminal`).
- A create call that raises yields the generic "Error" update with an empty talk id. Only a dict response without a truthy `id` yields "Failed", carrying the creation response as its log (`Poller.EarlyExit`).
- The create call yields no update of its own. Three polls answering "created", "started" and "done" give four updates: three progress updates, then "Completed successfully" (`Poller.SampleRun`).
- A `done` status without a truthy `result_url` ends the loop with the same "Processing timed out or failed (status: done)" text as a timeout (`Poller.TerminalStatusEndsRun`).
- An exception while polling ends the run with an "Error" update that has an empty talk id. A failed poll is not retried.
- The run has no cancellation: once started, it goes on until a terminal status, an exception or the deadline.
- `DIDClient.create_talk` and `get_talk` pass no `timeout` to `requests` (app.py:80-84, 89-92). A call can therefore block indefinitely. The 300-second deadline limits how many polls start, not how long a run lasts.

## Model

| member | source | states |
|---|---|---|
| `Payload.PayloadMatchesEncoder` | app.py:350-376 | The dict-spread builder, followed by the two `None` filters, gives exactly the encoding of the request the form expresses. Each script variant carries only its own keys, and each optional key is present exactly when its input is truthy. |
| `Payload.PayloadRoundTrip` | app.py:350-376 | The body sent to `POST /talks` decodes back to the form's request: nothing the form expresses is lost. |
| `Payload.EncodeRoundTrip` | app.py:350-376 | Every well-formed request survives encoding then decoding. |
| `Payload.PayloadDeterminedByRequest` | app.py:350-376 | Two forms give the same body if and only if they express the same request. Inputs the chosen script type ignores, and empty optional inputs, make no difference. |
| `Payload.ExternalTtsIgnored` | app.py:342-376 | The twelfth input (external TTS key) never affects the body. |
| `Payload.TopLevelFields` | app.py:351-372 | The top level has `source_url`, `script` and `config`, in that order, then `driver_url` exactly when a driver was chosen. `source_url` and `driver_url` carry the inputs. |
| `Payload.ScriptFields` | app.py:353-364 | `script` always has `type`, `input`, `subtitles`="false" and `ssml`="false". It has `provider` only for a text script and `audio_url` only for an audio script. `input` is the text for a text script and "" otherwise. |
| `Payload.ProviderFields` | app.py:358-362 | The provider of a text script names the TTS provider and the voice id. It has `voice_config.style` exactly when a style was given. |
| `Payload.ConfigFields` | app.py:365-370 | `config` always has `fluent`="false". `stitch` and `persist` are present, as `true`, exactly when ticked. `webhook` is present exactly when given. |
| `Payload.PayloadNullFree` | app.py:374-376 | No `null` is left anywhere in the body, at any depth. |
| `Payload.RequestOf` | app.py:352-371 | The request always satisfies `Valid`. It is a text script if and only if the type is "text", and an audio script if and only if the type is "audio". |
| `Json.Assign` | app.py:376 | `d[k] = v` makes `get(k)` return `v` and leaves every other key's value unchanged. An existing key keeps its position; a new key goes last. |
| `Json.DropNullsAppend` | app.py:375-376 | The `None` filter works binding by binding, so it distributes over concatenation. |
| `Json.Dump` | app.py:380-396 | `json.dumps(..., indent=2)` of any value, as written into the log, holds only printable ASCII characters and line breaks: `ensure_ascii` escapes everything else. |
| `Json.DropNullsKeeps` | app.py:375-376 | The `None` filter keeps exactly the bindings whose value is not null and drops every null one. |
| `Json.PlainStringRendering` | app.py:395-401 | A string of printable characters other than quotes and backslash is dumped as itself between double quotes and `repr`'d as itself between single quotes; its f-string text is the string. |
| `Payload.BuildPayload` | app.py:350-376 | The body sent to `POST /talks` is always a JSON object. Its content is given by `Payload.PayloadMatchesEncoder`. |
| `Json.LookupSpec` | app.py:382 | `get` finds a key exactly when the dict has it, and then returns one of its bindings. |
| `Poller.PollLoop` | app.py:392-435 | From test `k` on, the loop makes between `k` and 150 polls in total and yields at least one update. |
| `Poller.CreateTalk` | app.py:342-441 | A run makes at most 150 polls and yields at least one update. Without an API key it yields only the "Error: No API key" update and polls nothing. |
| `Poller.EarlyExit` | app.py:344-441 | A run that never reaches the loop makes no poll and yields exactly one update, with an empty talk id and a hidden video. The status is "Error: No API key" without a key, "Failed" for a dict response without a truthy `id`, and "Error" when creating raised or returned a non-dict. The "Failed" update carries the creation log. |
| `Poller.RunFromCreated` | app.py:378-435 | A run that reached the loop makes exactly the polls `StopsAt` describes. Every update but the last reports its poll and the log up to that poll. The last update is `FinalOf`. There is one update per poll, plus one unless the last poll raised or returned a non-dict. |
| `Poller.PollLoopStopsAt` | app.py:392-425 | The loop's poll count is the one `StopsAt` defines: each poll starts before the deadline, each poll but the last continues the loop, and after the last the loop ends or time is up. |
| `Poller.PollLoopProgress` | app.py:394-406 | Every update but the last is the progress update of its poll: "Status: " and the status, the result URL or "", and the log including that poll. |
| `Poller.MissingFieldsDefault` | app.py:395-402 | A poll response without `status` is reported as "Status: unknown", and one without `result_url` shows an empty result URL. |
| `Poller.PollLoopFinal` | app.py:408-441 | The last update is the final update `FinalOf` defines, and the count of updates matches the count of polls. |
| `Poller.SuccessEndsRun` | app.py:409-420 | A poll answering `done` with a truthy `result_url` is the last poll. The next update is the last one: "Completed successfully", showing exactly that URL. |
| `Poller.TerminalStatusEndsRun` | app.py:409-435 | A `failed` or `error` status, or `done` without a result URL, is the last poll. The last update names that status, with an empty result URL. |
| `Poller.OtherStatusKeepsPolling` | app.py:422-425 | Any other status, "rejected" included, is followed by another poll unless the deadline has passed. If the run stops there, the final update names that status. |
| `Poller.RejectedIsNotTerminal` | app.py:409-423 | "rejected" does not end the loop. |
| `Poller.OneFinalUpdate` | app.py:342-441 | In every run, every update but the last is a progress update, and the last one is not. |
| `Poller.RunBounded` | app.py:388-392 | Every poll starts before the 300-second deadline. There are at most 150 polls and at most one more update than polls. |
| `Poller.StuckRunTimesOut` | app.py:391-435 | If every poll returns the same non-terminal status, the run polls at least once and stops only at the deadline. The last update names that status. |
| `Poller.StartedForeverTimesOut` | app.py:391-435 | A talk that stays "started" ends in "Processing timed out or failed (status: started)". |
| `Poller.LogsGrow` | app.py:380-396 | Apart from an "Error" update, each update's log starts with the creation response and extends the log of every earlier update. |
| `Poller.LogOfUpdate` | app.py:380-396 | The log of a non-"Error" update is the creation response followed by the entries of every poll up to and including its own. |
| `Poller.SampleRun` | app.py:392-420 | Polls answering "created", "started", then "done" with a URL give exactly three polls and four updates. The first three updates are progress updates; the last is "Completed successfully" with that URL. |
| `Guards.MediaGuardIsPrefix` | app.py:40 | The guard `not url or not url.strip() or not startswith(...)` rejects exactly the URLs without an `http://` or `https://` prefix. The two emptiness tests add nothing. |
| `Guards.DownloadGuardIsMediaGuard` | app.py:98 | The download guard accepts exactly the URLs the validators accept. |
| `Guards.ValidateImageUrl` | app.py:37-52 | A thumbnail is returned exactly for an `http(s)` URL whose fetch and decode succeed, with "✅ Valid avatar image". Otherwise the result is the bad-URL message or the exception's message. |
| `Guards.ValidateAudioUrl` | app.py:54-69 | The URL is returned exactly when it has an `http(s)` prefix, the HEAD request succeeds, and the lower-cased Content-Type mentions `mp3` or `mpeg`. A bad prefix gives the bad-URL message. |
| `Guards.MissingContentTypeRejected` | app.py:63-65 | A response without a Content-Type header is rejected as not MP3. |
| `Guards.UpperCaseMpegAccepted` | app.py:63-64 | `audio/MPEG` is accepted: the test ignores case. |
| `Guards.ContentTypeIgnoresCase` | app.py:63-64 | Any two Content-Type headers that are equal up to ASCII case get the same verdict. A header is accepted exactly when its lower-cased form is. |
| `Guards.DownloadVideo` | app.py:96-120 | Only an `http(s)` URL with a completed transfer yields a path, `d-id_videos/video_<seconds>.mp4`, and that file then exists. After a failed transfer that file is gone. A bad URL changes nothing. |
| `Guards.SameSecondFailureRemovesVideo` | app.py:102-119 | A failed download in the same second as a successful one deletes the earlier video, because both use the same file name. |
| `Text.StripEmpty` | app.py:40 | `strip()` gives "" exactly when the string is all whitespace. |
| `Text.Lower` | app.py:63 | `lower()` keeps the length and leaves no upper-case ASCII letter. Each upper-case letter becomes its lower-case form, and every other character is unchanged. |
| `Text.LowerIdempotent` | app.py:63 | Lower-casing an already lower-cased string changes nothing. |

## Left out

- Network, image decoding and the file system: the HTTP calls, PIL, `np.array` and the chunked transfer are parameters (`Env`, `HeadResponse`, `ImageFetch`, `Transfer`). The files on disk are a set of paths, and `os.makedirs` is not modelled.
- The HTTP Basic authorization header (base64 of the key) and `BASE_URL` are not part of the body and are not modelled.
- Exception text is an opaque message. The `\nAPI Response:\n{e.response.text}` suffix added for HTTP errors (app.py:439-440) is not modelled.
- The clock is a sequence of readings. The model assumes each reading comes at least 2 seconds after the previous one (`Clocked`), which is what `time.sleep(2)` gives on a monotone clock. Clock jumps backwards are not modelled.
- JSON numbers are integers. Floating-point values in responses are not modelled.
- `str()` of a non-string status follows Python's `repr` rules for the values the model has. Floats are not among them. `repr` escapes non-printable characters beyond ASCII (such as U+0085), but the model keeps them as they are.
- `Text.Lower` lower-cases ASCII letters only. Python's Unicode case mapping is not modelled, and it only matters for non-ASCII Content-Type headers.
- Form inputs are strings and booleans. A `None` input, possible only through the Gradio API, is not modelled.
- The zero-iteration case: if the deadline has already passed at the first loop test, reading `current_status` raises `UnboundLocalError`. The model uses its Python 3.11 wording.
- `Guards.VideoPath` uses "/" as the separator. On Windows `os.path.join` uses "\".
- `download_handler`, `test_api_key`, `save_config`, `load_config`, the Gradio layout and `setup.py` are interface glue around the core and are not modelled.
- Blocking network calls: the create and poll calls have no timeout, so a real run can hang inside one of them and never yield its final update. In the model every call returns an `Outcome`, so `Poller.OneFinalUpdate`, the `1 <= |r.updates|` ensures of `Poller.CreateTalk` and the 150-poll bound of `Poller.RunBounded` hold only for runs in which every call returns.
- Json.Dump: a response whose wire text binds a key twice becomes, under `json.loads`, a dict with one binding for that key (the last value, at the first position). The model takes response dicts as already holding each key once, and prints every binding it is given.
- Payload.BuildPayload: its own contract says only that the body is an object. What the body holds is stated by `Payload.PayloadMatchesEncoder` and the field lemmas.
- Poller.PollLoop: its own contract states only the bounds on polls and updates. What each update is comes from the lemmas `PollLoopProgress` and `PollLoopFinal`. The 150-poll bound follows from the clock assumption; the source has no poll counter.

=== FILE: guards.dfy ===
/** The URL and MIME checks in front of the network calls: the shared
    guard of `validate_image_url` and `validate_audio_url` (app.py:40,
    app.py:57), the Content-Type check of `validate_audio_url`
    (app.py:63-64) and the prefix check of `download_video` (app.py:98).
    What the network returns is a parameter. */
module Guards {
  import opened Options
  import opened Text

  /** `url.startswith(('http://', 'https://'))`. */
  predicate HasHttpScheme(url: string) {
    "http://" <= url || "https://" <= url
  }

  /** The guard of both validators:
      `not url or not url.strip() or not url.startswith(('http://', 'https://'))`
      is false. */
  predicate MediaUrlAccepted(url: string) {
    url != "" && Strip(url) != "" && HasHttpScheme(url)
  }

  /** The emptiness and blankness tests add nothing: the guard accepts
      exactly the URLs with an `http://` or `https://` prefix. */
  lemma MediaGuardIsPrefix(url: string)
    ensures MediaUrlAccepted(url) <==> HasHttpScheme(url)
  {
    if HasHttpScheme(url) {
      assert url[0] == 'h';
      assert !AllSpace(url);
      StripEmpty(url);
    }
  }

  /** `download_video` checks only the prefix, and so accepts exactly the
      URLs the validators accept. */
  lemma DownloadGuardIsMediaGuard(url: string)
    ensures DownloadAccepted(url) <==> MediaUrlAccepted(url)
  {
    MediaGuardIsPrefix(url);
  }

  const BadUrlMessage: string := "\U{274C} Please enter a valid URL starting with http:// or https://"

  /** The message of the `except Exception as e` branch of both validators. */
  function ErrorMessage(message: string): string {
    "\U{274C} Error: " + message
  }

  // ---- validate_audio_url ----

  /** The `requests.head` call: the response's Content-Type header if it
      succeeded (absent when the server sent none), or the exception it or
      `raise_for_status` raised. */
  datatype HeadResponse = HeadOk(contentType: Option<string>) | HeadRaised(message: string)

  /** The Content-Type test: the header, lower-cased (`''` when missing),
      mentions `mp3` or `mpeg`. */
  predicate IsMp3Type(contentType: Option<string>) {
    var ct := Lower(contentType.GetOr(""));
    Contains(ct, "mp3") || Contains(ct, "mpeg")
  }

  /** `validate_audio_url(url)`: the accepted URL, if any, and the message. */
  function ValidateAudioUrl(url: string, head: string -> HeadResponse): (r: (Option<string>, string))
    ensures r.0.Some? <==> HasHttpScheme(url) && head(url).HeadOk? && IsMp3Type(head(url).contentType)
    ensures r.0.Some? ==> r.0.value == url && r.1 == "\U{2705} Valid MP3 audio file"
    ensures !HasHttpScheme(url) ==> r == (None, BadUrlMessage)
  {
    MediaGuardIsPrefix(url);
    if !MediaUrlAccepted(url) then (None, BadUrlMessage)
    else
      match head(url)
      case HeadRaised(message) => (None, ErrorMessage(message))
      case HeadOk(contentType) =>
        if !IsMp3Type(contentType) then (None, "\U{274C} Only MP3 audio files are supported")
        else (Some(url), "\U{2705} Valid MP3 audio file")
  }

  /** A response without a Content-Type header is rejected: `''` mentions neither type. */
  lemma MissingContentTypeRejected(url: string, head: string -> HeadResponse)
    requires head(url) == HeadOk(None)
    ensures ValidateAudioUrl(url, head) == (None, if HasHttpScheme(url) then "\U{274C} Only MP3 audio files are supported" else BadUrlMessage)
  {
    MediaGuardIsPrefix(url);
    assert !IsMp3Type(None);
  }

  /** The test ignores case: `audio/MPEG` is accepted like `audio/mpeg`. */
  lemma UpperCaseMpegAccepted(url: string, head: string -> HeadResponse)
    requires HasHttpScheme(url)
    requires head(url) == HeadOk(Some("audio/MPEG"))
    ensures ValidateAudioUrl(url, head) == (Some(url), "\U{2705} Valid MP3 audio file")
  {
    var ct := Lower("audio/MPEG");
    assert ct == "audio/mpeg";
    assert OccursAt(ct, "mpeg", 6);
  }

  /** The test ignores ASCII case: a header is accepted exactly when its
      lower-cased form is, and so exactly when any header equal to it up
      to case is. */
  lemma ContentTypeIgnoresCase(ct: string)
    ensures IsMp3Type(Some(ct)) == IsMp3Type(Some(Lower(ct)))
    ensures forall other :: Lower(other) == Lower(ct) ==> IsMp3Type(Some(other)) == IsMp3Type(Some(ct))
  {
    LowerIdempotent(ct);
  }

  // ---- validate_image_url ----

  /** The fetch-and-decode of the image: the thumbnail, or the message of
      the exception raised by `requests.get`, `raise_for_status` or PIL. */
  datatype ImageFetch<T> = Decoded(thumbnail: T) | FetchRaised(message: string)

  /** `validate_image_url(url)`: the thumbnail, if any, and the message. */
  function ValidateImageUrl<T>(url: string, fetch: string -> ImageFetch<T>): (r: (Option<T>, string))
    ensures r.0.Some? <==> HasHttpScheme(url) && fetch(url).Decoded?
    ensures r.0.Some? ==> r == (Some(fetch(url).thumbnail), "\U{2705} Valid avatar image")
    ensures !HasHttpScheme(url) ==> r == (None, BadUrlMessage)
    ensures HasHttpScheme(url) && fetch(url).FetchRaised? ==> r == (None, ErrorMessage(fetch(url).message))
  {
    MediaGuardIsPrefix(url);
    if !MediaUrlAccepted(url) then (None, BadUrlMessage)
    else
      match fetch(url)
      case FetchRaised(message) => (None, ErrorMessage(message))
      case Decoded(thumbnail) => (Some(thumbnail), "\U{2705} Valid avatar image")
  }

  // ---- download_video ----

  /** The guard of `download_video`. */
  predicate DownloadAccepted(url: string) {
    HasHttpScheme(url)
  }

  /** `os.path.join('d-id_videos', f"video_{int(time.time())}.mp4")`. */
  function VideoPath(now: nat): (r: string)
    ensures "d-id_videos/video_" <= r
  {
    "d-id_videos/video_" + NatDecimal(now) + ".mp4"
  }

  /** The streamed transfer: it completed, or it raised with a message. */
  datatype Transfer = Transferred | TransferRaised(message: string)

  /** `download_video(url)` with the clock reading `now` (whole seconds) and
      the set of files present before: the saved path, if any, the message
      and the files present afterwards. */
  function DownloadVideo(url: string, now: nat, transfer: string -> Transfer, files: set<string>)
    : (r: (Option<string>, string, set<string>))
    ensures r.0.Some? <==> DownloadAccepted(url) && transfer(url).Transferred?
    ensures r.0.Some? ==> r.0.value == VideoPath(now) && r.2 == files + {VideoPath(now)}
    ensures r.0.None? && DownloadAccepted(url) ==> r.2 == files - {VideoPath(now)}
    ensures !DownloadAccepted(url) ==> r == (None, "\U{274C} Invalid URL", files)
  {
    if !DownloadAccepted(url) then (None, "\U{274C} Invalid URL", files)
    else
      var path := VideoPath(now);
      match transfer(url)
      case Transferred => (Some(path), "\U{2705} Downloaded successfully", files + {path})
      case TransferRaised(message) =>
        (None, "\U{274C} Download failed: " + message, files - {path})
  }

  /** No partial file survives a failed download, and no other file is touched. */
  lemma FailedDownloadLeavesNoFile(url: string, now: nat, transfer: string -> Transfer, files: set<string>)
    requires DownloadAccepted(url) && transfer(url).TransferRaised?
    ensures var r := DownloadVideo(url, now, transfer, files);
      && r.0 == None
      && VideoPath(now) !in r.2
      && forall p :: p in files && p != VideoPath(now) ==> p in r.2
  {
  }

  /** The file name has a one-second resolution: a download that fails in
      the same second as an earlier successful one removes that video. */
  lemma SameSecondFailureRemovesVideo(url: string, other: string, now: nat,
                                      ok: string -> Transfer, bad: string -> Transfer, files: set<string>)
    requires DownloadAccepted(url) && DownloadAccepted(other)
    requires ok(url).Transferred? && bad(other).TransferRaised?
    ensures var first := DownloadVideo(url, now, ok, files);
      var second := DownloadVideo(other, now, bad, first.2);
      first.0 == Some(VideoPath(now)) && VideoPath(now) !in second.2
  {
  }
}

=== FILE: json.dfy ===
/** Decoded JSON values as Python holds them after `response.json()`, together
    with the dictionary operations the request builder and the poller use
    (`dict.get`, the `None`-dropping comprehension, item assignment) and the
    two renderings that reach the user: `json.dumps(value, indent=2)` and
    Python's `str(value)`. Floating-point numbers are not modelled. */
module Json {
  import opened Options
  import Text

  datatype Json =
    | JNull
    | JBool(b: bool)
    | JNum(n: int)
    | JStr(s: string)
    | JArr(items: seq<Json>)
    | JObj(members: seq<(string, Json)>)

  /** The bindings of a JSON object (a Python dict), in insertion order. */
  type Members = seq<(string, Json)>

  /** Python truthiness: `None`, `False`, `0`, `""`, `[]` and `{}` are false. */
  predicate Truthy(j: Json) {
    match j
    case JNull => false
    case JBool(b) => b
    case JNum(n) => n != 0
    case JStr(s) => s != ""
    case JArr(items) => items != []
    case JObj(ms) => ms != []
  }

  /** Python's type name of a value, as it appears in an `AttributeError`. */
  function TypeName(j: Json): string {
    match j
    case JNull => "NoneType"
    case JBool(_) => "bool"
    case JNum(_) => "int"
    case JStr(_) => "str"
    case JArr(_) => "list"
    case JObj(_) => "dict"
  }

  /** The keys of a dict, in order. */
  function Keys(ms: Members): (ks: seq<string>)
    ensures |ks| == |ms|
    ensures forall i :: 0 <= i < |ms| ==> ks[i] == ms[i].0
  {
    if ms == [] then [] else [ms[0].0] + Keys(ms[1..])
  }

  /** `d.get(key)`. The request dicts bind each key once (see `DistinctKeys`);
      responses are taken as given, and should one bind a key twice, the
      later binding is found. */
  function Lookup(ms: Members, key: string): Option<Json> {
    if ms == [] then None
    else
      var rest := Lookup(ms[1..], key);
      if rest.Some? then rest
      else if ms[0].0 == key then Some(ms[0].1)
      else None
  }

  /** `get` finds a key exactly when the dict has it, and then returns one of its bindings. */
  lemma {:induction false} LookupSpec(ms: Members, key: string)
    ensures Lookup(ms, key).None? <==> key !in Keys(ms)
    ensures Lookup(ms, key).Some? ==> (key, Lookup(ms, key).value) in ms
  {
    if ms != [] {
      LookupSpec(ms[1..], key);
      assert Keys(ms) == [ms[0].0] + Keys(ms[1..]);
    }
  }

  /** `d.get(key, default)` */
  function GetOr(ms: Members, key: string, default: Json): Json {
    Lookup(ms, key).GetOr(default)
  }

  /** No key is bound twice: true of every Python dict. */
  predicate DistinctKeys(ms: Members) {
    forall i, j :: 0 <= i < j < |ms| ==> ms[i].0 != ms[j].0
  }

  /** In a dict every key has exactly the value of its one binding. */
  lemma {:induction false} LookupDistinct(ms: Members, i: nat)
    requires DistinctKeys(ms)
    requires i < |ms|
    ensures Lookup(ms, ms[i].0) == Some(ms[i].1)
  {
    if i == 0 {
      LookupSpec(ms[1..], ms[0].0);
    } else {
      assert DistinctKeys(ms[1..]) by {
        forall a, b | 0 <= a < b < |ms[1..]| ensures ms[1..][a].0 != ms[1..][b].0 {
          assert ms[1..][a] == ms[a + 1] && ms[1..][b] == ms[b + 1];
        }
      }
      LookupDistinct(ms[1..], i - 1);
    }
  }

  /** A binding of a dict is what `get` returns for its key. */
  lemma LookupMember(ms: Members, k: string, v: Json)
    requires DistinctKeys(ms)
    requires (k, v) in ms
    ensures Lookup(ms, k) == Some(v)
  {
    var i :| 0 <= i < |ms| && ms[i] == (k, v);
    LookupDistinct(ms, i);
  }

  /** `get` of a key that no binding has is `None`. */
  lemma LookupMissing(ms: Members, k: string)
    requires forall p :: p in ms ==> p.0 != k
    ensures Lookup(ms, k) == None
  {
    LookupSpec(ms, k);
  }

  /** `{k: v for k, v in d.items() if v is not None}` */
  function DropNulls(ms: Members): (r: Members)
    ensures |r| <= |ms|
  {
    if ms == [] then []
    else (if ms[0].1 == JNull then [] else [ms[0]]) + DropNulls(ms[1..])
  }

  /** The comprehension keeps exactly the bindings whose value is not `None`. */
  lemma {:induction false} DropNullsKeeps(ms: Members)
    ensures forall p :: p in DropNulls(ms) <==> p in ms && p.1 != JNull
  {
    if ms != [] {
      DropNullsKeeps(ms[1..]);
      assert ms == [ms[0]] + ms[1..];
    }
  }

  /** The comprehension filters each binding on its own, so it distributes over concatenation. */
  lemma {:induction false} DropNullsAppend(a: Members, b: Members)
    ensures DropNulls(a + b) == DropNulls(a) + DropNulls(b)
    decreases |a|
  {
    if a != [] {
      assert (a + b)[1..] == a[1..] + b;
      DropNullsAppend(a[1..], b);
    } else {
      assert a + b == b;
    }
  }

  /** The comprehension keeps a dict that binds no key to `None` as it is. */
  lemma {:induction false} DropNullsNoNulls(ms: Members)
    requires forall i :: 0 <= i < |ms| ==> ms[i].1 != JNull
    ensures DropNulls(ms) == ms
    decreases |ms|
  {
    if ms != [] {
      DropNullsNoNulls(ms[1..]);
    }
  }

  lemma DropNullsPair(p: (string, Json), q: (string, Json))
    ensures DropNulls([p, q]) == (if p.1 == JNull then [] else [p]) + (if q.1 == JNull then [] else [q])
  {
    assert [p, q][1..] == [q];
    assert [q][1..] == [];
  }

  /** Rebinds every occurrence of `key` to `v`, leaving positions unchanged. */
  function Rebind(ms: Members, key: string, v: Json): Members {
    if ms == [] then []
    else [if ms[0].0 == key then (key, v) else ms[0]] + Rebind(ms[1..], key, v)
  }

  /** Rebinding keeps every key in its place. */
  lemma {:induction false} RebindKeys(ms: Members, key: string, v: Json)
    ensures Keys(Rebind(ms, key, v)) == Keys(ms)
    decreases |ms|
  {
    if ms != [] {
      RebindKeys(ms[1..], key, v);
    }
  }

  lemma {:induction false} RebindLookup(ms: Members, key: string, v: Json, k: string)
    ensures Lookup(Rebind(ms, key, v), k) == if k == key && key in Keys(ms) then Some(v) else Lookup(ms, k)
    decreases |ms|
  {
    if ms != [] {
      RebindLookup(ms[1..], key, v, k);
      LookupSpec(ms[1..], k);
      LookupSpec(Rebind(ms[1..], key, v), k);
      assert Rebind(ms, key, v)[1..] == Rebind(ms[1..], key, v);
      assert key in Keys(ms) <==> ms[0].0 == key || key in Keys(ms[1..]) by {
        assert Keys(ms) == [ms[0].0] + Keys(ms[1..]);
      }
    }
  }

  lemma {:induction false} RebindAppend(a: Members, b: Members, key: string, v: Json)
    ensures Rebind(a + b, key, v) == Rebind(a, key, v) + Rebind(b, key, v)
    decreases |a|
  {
    if a != [] {
      assert (a + b)[1..] == a[1..] + b;
      RebindAppend(a[1..], b, key, v);
    } else {
      assert a + b == b;
    }
  }

  lemma RebindSingle(p: (string, Json), key: string, v: Json)
    ensures Rebind([p], key, v) == [if p.0 == key then (key, v) else p]
  {
    assert [p][1..] == [];
  }

  /** `d[key] = v`: an existing key keeps its position and takes the new
      value; a new key is appended. */
  function Assign(ms: Members, key: string, v: Json): (r: Members)
    ensures Lookup(r, key) == Some(v)
    ensures forall k :: k != key ==> Lookup(r, k) == Lookup(ms, k)
    ensures Keys(r) == if key in Keys(ms) then Keys(ms) else Keys(ms) + [key]
  {
    if key in Keys(ms) then
      var r := Rebind(ms, key, v);
      RebindKeys(ms, key, v);
      assert Lookup(r, key) == Some(v) by { RebindLookup(ms, key, v, key); }
      assert forall k :: k != key ==> Lookup(r, k) == Lookup(ms, k) by {
        forall k | k != key ensures Lookup(r, k) == Lookup(ms, k) { RebindLookup(ms, key, v, k); }
      }
      r
    else
      LookupAppend(ms, key, v);
      ms + [(key, v)]
  }

  lemma {:induction false} LookupAppend(ms: Members, key: string, v: Json)
    ensures Lookup(ms + [(key, v)], key) == Some(v)
    ensures forall k :: k != key ==> Lookup(ms + [(key, v)], k) == Lookup(ms, k)
    ensures Keys(ms + [(key, v)]) == Keys(ms) + [key]
    decreases |ms|
  {
    if ms == [] {
      assert ([] + [(key, v)])[1..] == [];
    } else {
      assert (ms + [(key, v)])[1..] == ms[1..] + [(key, v)];
      LookupAppend(ms[1..], key, v);
    }
  }

  /** `get` on a concatenation: a binding in the later part wins. */
  lemma {:induction false} LookupConcat(a: Members, b: Members, k: string)
    ensures Lookup(a + b, k) == if Lookup(b, k).Some? then Lookup(b, k) else Lookup(a, k)
    decreases |a|
  {
    if a == [] {
      assert a + b == b;
    } else {
      assert (a + b)[1..] == a[1..] + b;
      LookupConcat(a[1..], b, k);
    }
  }

  lemma LookupSingle(p: (string, Json), k: string)
    ensures Lookup([p], k) == if p.0 == k then Some(p.1) else None
  {
    assert [p][1..] == [];
  }

  /** No `null` anywhere inside the value, at any depth. */
  predicate NullFree(j: Json) {
    match j
    case JNull => false
    case JArr(items) => forall i :: 0 <= i < |items| ==> NullFree(items[i])
    case JObj(ms) => forall i :: 0 <= i < |ms| ==> NullFree(ms[i].1)
    case _ => true
  }

  // ---- json.dumps(value, indent=2) ----

  /** One character of a JSON string literal as `json.dumps` writes it with
      its default `ensure_ascii=True`. */
  function EscapeChar(c: char): (r: string)
    ensures Text.Printable(r) && '\n' !in r
  {
    if c == '\\' then "\\\\"
    else if c == '"' then "\\\""
    else if c == '\n' then "\\n"
    else if c == '\r' then "\\r"
    else if c == '\t' then "\\t"
    else if c == '\U{8}' then "\\b"
    else if c == '\U{c}' then "\\f"
    else if ' ' <= c <= '~' then [c]
    else if (c as int) < 0x1_0000 then "\\u" + Text.Hex4(c as int)
    else
      var n := c as int - 0x1_0000;
      "\\u" + Text.Hex4(0xd800 + n / 0x400) + "\\u" + Text.Hex4(0xdc00 + n % 0x400)
  }

  function EscapeString(s: string): (r: string)
    ensures Text.Printable(r) && '\n' !in r
  {
    if s == [] then "" else EscapeChar(s[0]) + EscapeString(s[1..])
  }

  function Quote(s: string): (r: string)
    ensures Text.Printable(r) && '\n' !in r
  {
    "\"" + EscapeString(s) + "\""
  }

  function Indent(depth: nat): (r: string)
    ensures |r| == 2 * depth && forall c :: c in r ==> c == ' '
  {
    seq(2 * depth, _ => ' ')
  }

  /** `json.dumps(j, indent=2)` for a value nested `depth` levels deep. */
  function DumpAt(j: Json, depth: nat): (r: string)
    ensures Text.Printable(r)
    decreases j, 1
  {
    match j
    case JNull => "null"
    case JBool(b) => if b then "true" else "false"
    case JNum(n) => Text.IntDecimal(n)
    case JStr(s) => Quote(s)
    case JArr(items) =>
      if items == [] then "[]" else "[" + DumpItems(items, depth + 1) + "\n" + Indent(depth) + "]"
    case JObj(ms) =>
      if ms == [] then "{}" else "{" + DumpMembers(ms, depth + 1) + "\n" + Indent(depth) + "}"
  }

  function DumpItems(items: seq<Json>, depth: nat): (r: string)
    ensures Text.Printable(r)
    decreases items, 0
  {
    if items == [] then ""
    else
      "\n" + Indent(depth) + DumpAt(items[0], depth)
      + (if |items| == 1 then "" else ",") + DumpItems(items[1..], depth)
  }

  function DumpMembers(ms: Members, depth: nat): (r: string)
    ensures Text.Printable(r)
    decreases ms, 0
  {
    if ms == [] then ""
    else
      "\n" + Indent(depth) + DumpMember(ms[0], depth)
      + (if |ms| == 1 then "" else ",") + DumpMembers(ms[1..], depth)
  }

  function DumpMember(m: (string, Json), depth: nat): (r: string)
    ensures Text.Printable(r)
    decreases m, 2
  {
    Quote(m.0) + ": " + DumpAt(m.1, depth)
  }

  /** `json.dumps(j, indent=2)`: with the default `ensure_ascii=True` the
      text holds only printable ASCII and the line breaks of the layout. */
  function Dump(j: Json): (r: string)
    ensures Text.Printable(r)
  {
    DumpAt(j, 0)
  }

  // ---- str(value) ----

  /** The quote Python's `repr` puts around a string: a single quote unless the
      string holds a single quote and no double quote. */
  function ReprQuote(s: string): char {
    if '\'' in s && '"' !in s then '"' else '\''
  }

  function ReprChar(c: char, quote: char): string {
    if c == '\\' then "\\\\"
    else if c == quote then ['\\', c]
    else if c == '\n' then "\\n"
    else if c == '\r' then "\\r"
    else if c == '\t' then "\\t"
    else if c < ' ' || c == '\U{7f}' then "\\x" + Text.Hex4(c as int)[2..]
    else [c]
  }

  function ReprBody(s: string, quote: char): string {
    if s == [] then "" else ReprChar(s[0], quote) + ReprBody(s[1..], quote)
  }

  /** `repr(s)` for a string. */
  function ReprString(s: string): string {
    var q := ReprQuote(s);
    [q] + ReprBody(s, q) + [q]
  }

  /** `str` and `repr` of `None`, a bool or an int, which agree. */
  function Scalar(j: Json): string {
    match j
    case JNull => "None"
    case JBool(b) => if b then "True" else "False"
    case JNum(n) => Text.IntDecimal(n)
    case _ => ""
  }

  /** `repr(j)` */
  function Repr(j: Json): string
    decreases j, 1
  {
    match j
    case JStr(s) => ReprString(s)
    case JArr(items) => "[" + ReprItems(items) + "]"
    case JObj(ms) => "{" + ReprMembers(ms) + "}"
    case _ => Scalar(j)
  }

  function ReprItems(items: seq<Json>): string
    decreases items, 0
  {
    if items == [] then ""
    else Repr(items[0]) + (if |items| == 1 then "" else ", ") + ReprItems(items[1..])
  }

  function ReprMembers(ms: Members): string
    decreases ms, 0
  {
    if ms == [] then ""
    else
      ReprMember(ms[0]) + (if |ms| == 1 then "" else ", ") + ReprMembers(ms[1..])
  }

  function ReprMember(m: (string, Json)): string
    decreases m, 2
  {
    ReprString(m.0) + ": " + Repr(m.1)
  }

  /** `str(j)`, which is also what an f-string interpolates: a string is
      itself, anything else is its `repr`. */
  function Str(j: Json): string {
    match j
    case JStr(s) => s
    case JArr(_) => Repr(j)
    case JObj(_) => Repr(j)
    case _ => Scalar(j)
  }

  /** A character both renderers write as itself inside their quotes. */
  predicate PlainChar(c: char) {
    ' ' <= c <= '~' && c != '"' && c != '\'' && c != '\\'
  }

  lemma EscapePlainChar(c: char)
    requires PlainChar(c)
    ensures EscapeChar(c) == [c]
  {
  }

  lemma {:induction false} EscapePlain(s: string)
    requires forall c :: c in s ==> PlainChar(c)
    ensures EscapeString(s) == s
  {
    if s != [] {
      assert s[0] in s;
      EscapePlainChar(s[0]);
      assert forall c :: c in s[1..] ==> c in s;
      EscapePlain(s[1..]);
      assert s == [s[0]] + s[1..];
    }
  }

  lemma ReprPlainChar(c: char)
    requires PlainChar(c)
    ensures ReprChar(c, '\'') == [c]
  {
  }

  lemma {:induction false} ReprPlain(s: string)
    requires forall c :: c in s ==> PlainChar(c)
    ensures ReprBody(s, '\'') == s
  {
    if s != [] {
      assert s[0] in s;
      ReprPlainChar(s[0]);
      assert forall c :: c in s[1..] ==> c in s;
      ReprPlain(s[1..]);
      assert s == [s[0]] + s[1..];
    }
  }

  /** A string of plain printable characters is written by `json.dumps` in
      double quotes and by `repr` in single quotes, unchanged in between;
      `str` gives the string itself. */
  lemma PlainStringRendering(s: string)
    requires forall c :: c in s ==> PlainChar(c)
    ensures Dump(JStr(s)) == "\"" + s + "\""
    ensures Repr(JStr(s)) == "'" + s + "'"
    ensures Str(JStr(s)) == s
  {
    EscapePlain(s);
    ReprPlain(s);
    assert !('\'' in s);
  }
}

=== FILE: options.dfy ===
/** A value that may be missing, standing for Python's `None`. */
module Options {

  datatype Option<+T> = None | Some(value: T) {

    /** The held value, falling back to `default` for `None`. */
    function GetOr(default: T): T {
      if Some? then value else default
    }
  }
}

=== FILE: payload.dfy ===
/** The request body `create_talk` sends with `POST /talks` (app.py:350-376).

    The source builds the body with dict spreads and then drops `None`
    values from the top level and from `script`. Next to that builder the
    module keeps the job request as a typed value (`JobRequest`), an encoder
    that writes each variant with only its own keys, and a decoder. The
    lemmas show that the builder is the encoder applied to the typed form of
    the inputs, and that the body can be decoded back into that form. */
module Payload {
  import opened Options
  import opened Json

  /** The twelve inputs of the form, in the order they reach `create_talk`
      as `args[0]`..`args[11]` (app.py:445-449). Check boxes are booleans;
      every other input is text. */
  datatype Form = Form(
    sourceUrl: string,
    scriptType: string,
    text: string,
    audioUrl: string,
    voiceProvider: string,
    voiceId: string,
    voiceStyle: string,
    driverUrl: string,
    webhook: string,
    stitch: bool,
    persist: bool,
    externalTts: string)

  // ---- the builder as written ----

  /** `{k: v}` when `v` is truthy, `{}` otherwise: the spread of an optional key. */
  function IfGiven(key: string, v: string): Members {
    if v != "" then [(key, JStr(v))] else []
  }

  function RawProvider(f: Form): Json {
    JObj([("type", JStr(f.voiceProvider)), ("voice_id", JStr(f.voiceId))]
         + (if f.voiceStyle != "" then [("voice_config", JObj([("style", JStr(f.voiceStyle))]))] else []))
  }

  /** The `script` dict before the `None` values are dropped. */
  function RawScript(f: Form): Members {
    [ ("type", JStr(f.scriptType)),
      ("input", JStr(if f.scriptType == "text" then f.text else "")),
      ("subtitles", JStr("false")),
      ("ssml", JStr("false")),
      ("provider", if f.scriptType == "text" then RawProvider(f) else JNull),
      ("audio_url", if f.scriptType == "audio" then JStr(f.audioUrl) else JNull) ]
  }

  function RawConfig(f: Form): Json {
    JObj([("fluent", JStr("false"))]
         + (if f.stitch then [("stitch", JBool(true))] else [])
         + (if f.persist then [("persist", JBool(true))] else [])
         + IfGiven("webhook", f.webhook))
  }

  /** The `payload` dict before the `None` values are dropped. */
  function RawPayload(f: Form): Members {
    [ ("source_url", JStr(f.sourceUrl)),
      ("script", JObj(RawScript(f))),
      ("config", RawConfig(f)) ]
    + IfGiven("driver_url", f.driverUrl)
  }

  /** The body sent to `POST /talks`: `None` values dropped from the top level,
      then `payload["script"]` replaced by the script without its `None` values. */
  function BuildPayload(f: Form): (r: Json)
    ensures r.JObj?
  {
    JObj(Assign(DropNulls(RawPayload(f)), "script", JObj(DropNulls(RawScript(f)))))
  }

  // ---- the typed request, its encoder and decoder ----

  datatype Voice = Voice(provider: string, voiceId: string, style: Option<string>)

  /** The script variants: text spoken by a TTS voice, a recorded audio file,
      or a script type other than the two the form offers. */
  datatype Script =
    | TextScript(input: string, voice: Voice)
    | AudioScript(audioUrl: string)
    | OtherScript(kind: string)

  datatype JobRequest = JobRequest(
    sourceUrl: string,
    script: Script,
    driverUrl: Option<string>,
    webhook: Option<string>,
    stitch: bool,
    persist: bool)

  /** A text input as an optional value: an empty input is an unset one. */
  function Given(s: string): (o: Option<string>)
    ensures o.Some? <==> s != ""
    ensures o.Some? ==> o.value == s
  {
    if s != "" then Some(s) else None
  }

  /** The requests the form can express: set optional texts are non-empty,
      and `OtherScript` is neither of the two named types. */
  predicate Valid(req: JobRequest) {
    && req.driverUrl != Some("")
    && req.webhook != Some("")
    && (req.script.TextScript? ==> req.script.voice.style != Some(""))
    && (req.script.OtherScript? ==> req.script.kind != "text" && req.script.kind != "audio")
  }

  /** What the form asks for; inputs that the chosen script type ignores are dropped. */
  function RequestOf(f: Form): (req: JobRequest)
    ensures Valid(req)
    ensures req.script.TextScript? <==> f.scriptType == "text"
    ensures req.script.AudioScript? <==> f.scriptType == "audio"
  {
    JobRequest(
      f.sourceUrl,
      if f.scriptType == "text" then TextScript(f.text, Voice(f.voiceProvider, f.voiceId, Given(f.voiceStyle)))
      else if f.scriptType == "audio" then AudioScript(f.audioUrl)
      else OtherScript(f.scriptType),
      Given(f.driverUrl),
      Given(f.webhook),
      f.stitch,
      f.persist)
  }

  function Optional(key: string, o: Option<string>): Members {
    match o
    case Some(s) => [(key, JStr(s))]
    case None => []
  }

  function EncodeVoice(v: Voice): Json {
    JObj([("type", JStr(v.provider)), ("voice_id", JStr(v.voiceId))]
         + match v.style
           case Some(s) => [("voice_config", JObj([("style", JStr(s))]))]
           case None => [])
  }

  /** The keys every script carries. */
  function ScriptHead(kind: string, input: string): Members {
    [("type", JStr(kind)), ("input", JStr(input)), ("subtitles", JStr("false")), ("ssml", JStr("false"))]
  }

  /** Each variant is written with its own keys only. */
  function EncodeScript(s: Script): Json {
    match s
    case TextScript(input, voice) => JObj(ScriptHead("text", input) + [("provider", EncodeVoice(voice))])
    case AudioScript(url) => JObj(ScriptHead("audio", "") + [("audio_url", JStr(url))])
    case OtherScript(kind) => JObj(ScriptHead(kind, ""))
  }

  function EncodeConfig(req: JobRequest): Json {
    JObj([("fluent", JStr("false"))]
         + (if req.stitch then [("stitch", JBool(true))] else [])
         + (if req.persist then [("persist", JBool(true))] else [])
         + Optional("webhook", req.webhook))
  }

  /** The wire form of a request: unset optional fields are absent, never null. */
  function Encode(req: JobRequest): Json {
    JObj([("source_url", JStr(req.sourceUrl)),
          ("script", EncodeScript(req.script)),
          ("config", EncodeConfig(req))]
         + Optional("driver_url", req.driverUrl))
  }

  function DecodeString(o: Option<Json>): Option<string> {
    match o
    case Some(JStr(s)) => Some(s)
    case _ => None
  }

  function DecodeVoice(ms: Members): Option<Voice> {
    match (Lookup(ms, "type"), Lookup(ms, "voice_id"))
    case (Some(JStr(provider)), Some(JStr(id))) =>
      var style :=
        match Lookup(ms, "voice_config")
        case Some(JObj(vc)) => DecodeString(Lookup(vc, "style"))
        case _ => None;
      Some(Voice(provider, id, style))
    case _ => None
  }

  function DecodeScript(ms: Members): Option<Script> {
    match (Lookup(ms, "type"), Lookup(ms, "input"))
    case (Some(JStr(kind)), Some(JStr(input))) =>
      if kind == "text" then
        match Lookup(ms, "provider")
        case Some(JObj(p)) =>
          (match DecodeVoice(p)
           case Some(v) => Some(TextScript(input, v))
           case None => None)
        case _ => None
      else if kind == "audio" then
        match Lookup(ms, "audio_url")
        case Some(JStr(url)) => Some(AudioScript(url))
        case _ => None
      else Some(OtherScript(kind))
    case _ => None
  }

  /** Reads a request body back into the request it encodes. */
  function Decode(j: Json): Option<JobRequest> {
    match j
    case JObj(ms) =>
      (match (Lookup(ms, "source_url"), Lookup(ms, "script"), Lookup(ms, "config"))
       case (Some(JStr(src)), Some(JObj(sc)), Some(JObj(cfg))) =>
         (match DecodeScript(sc)
          case Some(script) =>
            Some(JobRequest(
              src, script,
              DecodeString(Lookup(ms, "driver_url")),
              DecodeString(Lookup(cfg, "webhook")),
              Lookup(cfg, "stitch") == Some(JBool(true)),
              Lookup(cfg, "persist") == Some(JBool(true))))
          case None => None)
       case _ => None)
    case _ => None
  }

  // ---- properties ----

  /** Dropping `None` from the script leaves exactly the keys of its variant. */
  lemma ScriptMatchesEncoder(f: Form)
    ensures JObj(DropNulls(RawScript(f))) == EncodeScript(RequestOf(f).script)
  {
    var raw := RawScript(f);
    var head := ScriptHead(f.scriptType, if f.scriptType == "text" then f.text else "");
    var tail := [raw[4], raw[5]];
    assert raw == head + tail;
    DropNullsAppend(head, tail);
    DropNullsNoNulls(head);
    DropNullsPair(raw[4], raw[5]);
    var kept := DropNulls(raw);
    assert kept == head + DropNulls(tail);
    if f.scriptType == "text" {
      assert DropNulls(tail) == [("provider", RawProvider(f))];
      assert RawProvider(f) == EncodeVoice(RequestOf(f).script.voice);
    } else if f.scriptType == "audio" {
      assert DropNulls(tail) == [("audio_url", JStr(f.audioUrl))];
    } else {
      assert DropNulls(tail) == [];
      assert kept == head;
    }
  }

  /** Assigning the filtered script rebinds `script` in place. */
  lemma RebindScriptKey(a: (string, Json), b: Json, c: (string, Json), script: Json)
    requires a.0 != "script" && c.0 != "script"
    ensures Rebind([a, ("script", b), c], "script", script) == [a, ("script", script), c]
  {
    var fixed := [a, ("script", b), c];
    assert fixed == [a] + [("script", b)] + [c];
    RebindAppend([a] + [("script", b)], [c], "script", script);
    RebindAppend([a], [("script", b)], "script", script);
    RebindSingle(a, "script", script);
    RebindSingle(("script", b), "script", script);
    RebindSingle(c, "script", script);
  }

  lemma AssignScript(f: Form, script: Json)
    ensures Assign(DropNulls(RawPayload(f)), "script", script)
         == [("source_url", JStr(f.sourceUrl)), ("script", script), ("config", RawConfig(f))]
            + IfGiven("driver_url", f.driverUrl)
  {
    var raw := RawPayload(f);
    DropNullsNoNulls(raw);
    assert Keys(raw)[1] == "script";
    assert Assign(raw, "script", script) == Rebind(raw, "script", script);
    RebindRawPayload(f, script);
  }

  lemma RebindRawPayload(f: Form, script: Json)
    ensures Rebind(RawPayload(f), "script", script)
         == [("source_url", JStr(f.sourceUrl)), ("script", script), ("config", RawConfig(f))]
            + IfGiven("driver_url", f.driverUrl)
  {
    var fixed := [("source_url", JStr(f.sourceUrl)), ("script", JObj(RawScript(f))), ("config", RawConfig(f))];
    var opt := IfGiven("driver_url", f.driverUrl);
    RebindAppend(fixed, opt, "script", script);
    assert Rebind(opt, "script", script) == opt by {
      if opt != [] { RebindSingle(opt[0], "script", script); }
    }
    RebindScriptKey(fixed[0], JObj(RawScript(f)), fixed[2], script);
  }

  /** The dict-spread builder produces exactly the encoding of the typed
      request: the `None` placeholders for the unused script variant are
      gone, and every optional key is present exactly when its input is set. */
  lemma PayloadMatchesEncoder(f: Form)
    ensures BuildPayload(f) == Encode(RequestOf(f))
  {
    ScriptMatchesEncoder(f);
    AssignScript(f, JObj(DropNulls(RawScript(f))));
    assert RawConfig(f) == EncodeConfig(RequestOf(f));
  }

  lemma VoiceRoundTrip(v: Voice)
    requires v.style != Some("")
    ensures EncodeVoice(v).JObj? && DecodeVoice(EncodeVoice(v).members) == Some(v)
  {
    var ms := EncodeVoice(v).members;
    assert DistinctKeys(ms);
    LookupMember(ms, "type", JStr(v.provider));
    LookupMember(ms, "voice_id", JStr(v.voiceId));
    match v.style
    case Some(st) =>
      LookupMember(ms, "voice_config", JObj([("style", JStr(st))]));
      LookupMember([("style", JStr(st))], "style", JStr(st));
    case None =>
      LookupMissing(ms, "voice_config");
  }

  /** What `get` returns on each key of an encoded script. */
  lemma ScriptLookups(s: Script)
    ensures EncodeScript(s).JObj?
    ensures var ms := EncodeScript(s).members;
      && Lookup(ms, "type") == Some(JStr(match s case TextScript(_, _) => "text" case AudioScript(_) => "audio" case OtherScript(k) => k))
      && Lookup(ms, "input") == Some(JStr(if s.TextScript? then s.input else ""))
      && (s.TextScript? ==> Lookup(ms, "provider") == Some(EncodeVoice(s.voice)))
      && (s.AudioScript? ==> Lookup(ms, "audio_url") == Some(JStr(s.audioUrl)))
  {
    var ms := EncodeScript(s).members;
    assert DistinctKeys(ms);
    match s
    case TextScript(input, voice) =>
      LookupMember(ms, "type", JStr("text"));
      LookupMember(ms, "input", JStr(input));
      LookupMember(ms, "provider", EncodeVoice(voice));
    case AudioScript(url) =>
      LookupMember(ms, "type", JStr("audio"));
      LookupMember(ms, "input", JStr(""));
      LookupMember(ms, "audio_url", JStr(url));
    case OtherScript(kind) =>
      LookupMember(ms, "type", JStr(kind));
      LookupMember(ms, "input", JStr(""));
  }

  lemma TextScriptRoundTrip(input: string, voice: Voice)
    requires voice.style != Some("")
    ensures DecodeScript(EncodeScript(TextScript(input, voice)).members) == Some(TextScript(input, voice))
  {
    ScriptLookups(TextScript(input, voice));
    VoiceRoundTrip(voice);
  }

  lemma AudioScriptRoundTrip(url: string)
    ensures DecodeScript(EncodeScript(AudioScript(url)).members) == Some(AudioScript(url))
  {
    ScriptLookups(AudioScript(url));
  }

  lemma OtherScriptRoundTrip(kind: string)
    requires kind != "text" && kind != "audio"
    ensures DecodeScript(EncodeScript(OtherScript(kind)).members) == Some(OtherScript(kind))
  {
    ScriptLookups(OtherScript(kind));
  }

  lemma ScriptRoundTrip(s: Script)
    requires s.TextScript? ==> s.voice.style != Some("")
    requires s.OtherScript? ==> s.kind != "text" && s.kind != "audio"
    ensures EncodeScript(s).JObj? && DecodeScript(EncodeScript(s).members) == Some(s)
  {
    match s
    case TextScript(input, voice) => TextScriptRoundTrip(input, voice);
    case AudioScript(url) => AudioScriptRoundTrip(url);
    case OtherScript(kind) => OtherScriptRoundTrip(kind);
  }

  /** What `get` returns on each key of an encoded config. */
  lemma ConfigLookups(req: JobRequest)
    ensures var cfg := EncodeConfig(req).members;
      && Lookup(cfg, "fluent") == Some(JStr("false"))
      && Lookup(cfg, "webhook") == (match req.webhook case Some(w) => Some(JStr(w)) case None => None)
      && Lookup(cfg, "stitch") == (if req.stitch then Some(JBool(true)) else None)
      && Lookup(cfg, "persist") == (if req.persist then Some(JBool(true)) else None)
  {
    ConfigLookup(req, "fluent");
    ConfigLookup(req, "webhook");
    ConfigLookup(req, "stitch");
    ConfigLookup(req, "persist");
  }

  /** `get` on `config`: each key comes from its own part. */
  lemma ConfigLookup(req: JobRequest, k: string)
    ensures Lookup(EncodeConfig(req).members, k)
         == if k == "webhook" then (match req.webhook case Some(w) => Some(JStr(w)) case None => None)
            else if k == "persist" then (if req.persist then Some(JBool(true)) else None)
            else if k == "stitch" then (if req.stitch then Some(JBool(true)) else None)
            else if k == "fluent" then Some(JStr("false"))
            else None
  {
    var f: Members := [("fluent", JStr("false"))];
    var st: Members := if req.stitch then [("stitch", JBool(true))] else [];
    var ps: Members := if req.persist then [("persist", JBool(true))] else [];
    var wh := Optional("webhook", req.webhook);
    assert EncodeConfig(req).members == f + st + ps + wh;
    LookupConcat(f + st + ps, wh, k);
    LookupConcat(f + st, ps, k);
    LookupConcat(f, st, k);
    LookupSingle(f[0], k);
    if req.stitch { LookupSingle(st[0], k); }
    if req.persist { LookupSingle(ps[0], k); }
    if req.webhook.Some? { LookupSingle(wh[0], k); }
  }

  /** What `get` returns on each key of an encoded request. */
  lemma TopLookups(req: JobRequest)
    ensures var ms := Encode(req).members;
      && Lookup(ms, "source_url") == Some(JStr(req.sourceUrl))
      && Lookup(ms, "script") == Some(EncodeScript(req.script))
      && Lookup(ms, "config") == Some(EncodeConfig(req))
      && Lookup(ms, "driver_url") == (match req.driverUrl case Some(d) => Some(JStr(d)) case None => None)
  {
    var ms := Encode(req).members;
    assert DistinctKeys(ms);
    LookupMember(ms, "source_url", JStr(req.sourceUrl));
    LookupMember(ms, "script", EncodeScript(req.script));
    LookupMember(ms, "config", EncodeConfig(req));
    match req.driverUrl
    case Some(d) => LookupMember(ms, "driver_url", JStr(d));
    case None => LookupMissing(ms, "driver_url");
  }

  /** Decoding inverts encoding on every request the form can express. */
  lemma EncodeRoundTrip(req: JobRequest)
    requires Valid(req)
    ensures Decode(Encode(req)) == Some(req)
  {
    TopLookups(req);
    ConfigLookups(req);
    ScriptRoundTrip(req.script);
  }

  /** The body can be read back into the request the form expresses. */
  lemma PayloadRoundTrip(f: Form)
    ensures Decode(BuildPayload(f)) == Some(RequestOf(f))
  {
    PayloadMatchesEncoder(f);
    EncodeRoundTrip(RequestOf(f));
  }

  /** Two forms produce the same body exactly when they express the same
      request: inputs the chosen script type ignores, empty optional inputs
      and the external TTS key make no difference, and nothing else is lost. */
  lemma PayloadDeterminedByRequest(f: Form, g: Form)
    ensures BuildPayload(f) == BuildPayload(g) <==> RequestOf(f) == RequestOf(g)
  {
    PayloadMatchesEncoder(f);
    PayloadMatchesEncoder(g);
    PayloadRoundTrip(f);
    PayloadRoundTrip(g);
  }

  /** The external TTS input (`args[11]`) never reaches the body. */
  lemma ExternalTtsIgnored(f: Form, key: string)
    ensures BuildPayload(f.(externalTts := key)) == BuildPayload(f)
  {
    PayloadDeterminedByRequest(f, f.(externalTts := key));
  }

  /** The top level holds `source_url`, `script` and `config`, and
      `driver_url` exactly when a driver was chosen. */
  lemma TopLevelFields(f: Form)
    ensures var p := BuildPayload(f).members;
      && Keys(p) == ["source_url", "script", "config"] + (if f.driverUrl != "" then ["driver_url"] else [])
      && Lookup(p, "source_url") == Some(JStr(f.sourceUrl))
      && Lookup(p, "driver_url") == (if f.driverUrl != "" then Some(JStr(f.driverUrl)) else None)
  {
    var req := RequestOf(f);
    PayloadMatchesEncoder(f);
    EncodedTopFields(req);
  }

  lemma EncodedTopFields(req: JobRequest)
    ensures var p := Encode(req).members;
      && Keys(p) == ["source_url", "script", "config"] + (if req.driverUrl.Some? then ["driver_url"] else [])
      && Lookup(p, "source_url") == Some(JStr(req.sourceUrl))
      && Lookup(p, "driver_url") == (if req.driverUrl.Some? then Some(JStr(req.driverUrl.value)) else None)
  {
    TopLookups(req);
    var p := Encode(req).members;
    var ks := ["source_url", "script", "config"] + (if req.driverUrl.Some? then ["driver_url"] else []);
    assert |Keys(p)| == |ks|;
    assert forall i :: 0 <= i < |ks| ==> Keys(p)[i] == ks[i];
  }

  lemma ScriptKeys(s: Script)
    ensures EncodeScript(s).JObj?
    ensures Keys(EncodeScript(s).members)
         == ["type", "input", "subtitles", "ssml"]
            + (if s.TextScript? then ["provider"] else [])
            + (if s.AudioScript? then ["audio_url"] else [])
  {
  }

  lemma ScriptFixedFields(s: Script)
    ensures EncodeScript(s).JObj?
    ensures Lookup(EncodeScript(s).members, "subtitles") == Some(JStr("false"))
    ensures Lookup(EncodeScript(s).members, "ssml") == Some(JStr("false"))
  {
    var sc := EncodeScript(s).members;
    assert DistinctKeys(sc);
    LookupMember(sc, "subtitles", JStr("false"));
    LookupMember(sc, "ssml", JStr("false"));
  }

  /** `script` always carries `type`, `input`, `subtitles` and `ssml`;
      `provider` only for a text script and `audio_url` only for an audio
      script. `input` is the text for a text script and empty otherwise. */
  lemma ScriptFields(f: Form)
    ensures match Lookup(BuildPayload(f).members, "script")
      case Some(JObj(sc)) =>
        && Keys(sc) == ["type", "input", "subtitles", "ssml"]
                       + (if f.scriptType == "text" then ["provider"] else [])
                       + (if f.scriptType == "audio" then ["audio_url"] else [])
        && Lookup(sc, "type") == Some(JStr(f.scriptType))
        && Lookup(sc, "input") == Some(JStr(if f.scriptType == "text" then f.text else ""))
        && Lookup(sc, "subtitles") == Some(JStr("false"))
        && Lookup(sc, "ssml") == Some(JStr("false"))
        && (f.scriptType == "audio" ==> Lookup(sc, "audio_url") == Some(JStr(f.audioUrl)))
      case _ => false
  {
    var req := RequestOf(f);
    PayloadMatchesEncoder(f);
    TopLookups(req);
    ScriptLookups(req.script);
    ScriptKeys(req.script);
    ScriptFixedFields(req.script);
  }

  /** The provider of a text script names the TTS provider and voice, and
      carries `voice_config.style` exactly when a style was given. */
  lemma ProviderFields(f: Form)
    requires f.scriptType == "text"
    ensures match Lookup(BuildPayload(f).members, "script")
      case Some(JObj(sc)) =>
        (match Lookup(sc, "provider")
         case Some(JObj(pv)) =>
           && Keys(pv) == ["type", "voice_id"] + (if f.voiceStyle != "" then ["voice_config"] else [])
           && Lookup(pv, "type") == Some(JStr(f.voiceProvider))
           && Lookup(pv, "voice_id") == Some(JStr(f.voiceId))
           && Lookup(pv, "voice_config")
              == (if f.voiceStyle != "" then Some(JObj([("style", JStr(f.voiceStyle))])) else None)
         case _ => false)
      case _ => false
  {
    var req := RequestOf(f);
    PayloadMatchesEncoder(f);
    TopLookups(req);
    ScriptLookups(req.script);
    EncodedVoiceFields(req.script.voice);
  }

  lemma EncodedVoiceFields(v: Voice)
    ensures EncodeVoice(v).JObj?
    ensures var pv := EncodeVoice(v).members;
      && Keys(pv) == ["type", "voice_id"] + (if v.style.Some? then ["voice_config"] else [])
      && Lookup(pv, "type") == Some(JStr(v.provider))
      && Lookup(pv, "voice_id") == Some(JStr(v.voiceId))
      && Lookup(pv, "voice_config")
         == (if v.style.Some? then Some(JObj([("style", JStr(v.style.value))])) else None)
  {
    var pv := EncodeVoice(v).members;
    assert DistinctKeys(pv);
    LookupMember(pv, "type", JStr(v.provider));
    LookupMember(pv, "voice_id", JStr(v.voiceId));
    if v.style.Some? {
      LookupMember(pv, "voice_config", JObj([("style", JStr(v.style.value))]));
    } else {
      LookupMissing(pv, "voice_config");
    }
  }

  /** `config` always carries `fluent = "false"`; `stitch` and `persist` are
      present, as `true`, exactly when ticked, and `webhook` exactly when given. */
  lemma ConfigFields(f: Form)
    ensures match Lookup(BuildPayload(f).members, "config")
      case Some(JObj(cfg)) =>
        && Keys(cfg) == ["fluent"]
                        + (if f.stitch then ["stitch"] else [])
                        + (if f.persist then ["persist"] else [])
                        + (if f.webhook != "" then ["webhook"] else [])
        && Lookup(cfg, "fluent") == Some(JStr("false"))
        && Lookup(cfg, "stitch") == (if f.stitch then Some(JBool(true)) else None)
        && Lookup(cfg, "persist") == (if f.persist then Some(JBool(true)) else None)
        && Lookup(cfg, "webhook") == (if f.webhook != "" then Some(JStr(f.webhook)) else None)
      case _ => false
  {
    var req := RequestOf(f);
    PayloadMatchesEncoder(f);
    TopLookups(req);
    EncodedConfigFields(req);
  }

  lemma EncodedConfigFields(req: JobRequest)
    ensures var cfg := EncodeConfig(req).members;
      && Keys(cfg) == ["fluent"]
                      + (if req.stitch then ["stitch"] else [])
                      + (if req.persist then ["persist"] else [])
                      + (if req.webhook.Some? then ["webhook"] else [])
      && Lookup(cfg, "fluent") == Some(JStr("false"))
      && Lookup(cfg, "stitch") == (if req.stitch then Some(JBool(true)) else None)
      && Lookup(cfg, "persist") == (if req.persist then Some(JBool(true)) else None)
      && Lookup(cfg, "webhook") == (if req.webhook.Some? then Some(JStr(req.webhook.value)) else None)
  {
    ConfigLookups(req);
    var cfg := EncodeConfig(req).members;
    var ks := ["fluent"]
              + (if req.stitch then ["stitch"] else [])
              + (if req.persist then ["persist"] else [])
              + (if req.webhook.Some? then ["webhook"] else []);
    assert |Keys(cfg)| == |ks|;
    assert forall i :: 0 <= i < |ks| ==> Keys(cfg)[i] == ks[i];
  }

  lemma VoiceNullFree(v: Voice)
    ensures NullFree(EncodeVoice(v))
  {
    var ms := EncodeVoice(v).members;
    if v.style.Some? {
      assert NullFree(ms[2].1);
    }
  }

  lemma ScriptNullFree(s: Script)
    ensures NullFree(EncodeScript(s))
  {
    if s.TextScript? {
      VoiceNullFree(s.voice);
    }
  }

  /** No `null` survives anywhere in the body: unset fields are absent. */
  lemma PayloadNullFree(f: Form)
    ensures NullFree(BuildPayload(f))
  {
    var req := RequestOf(f);
    PayloadMatchesEncoder(f);
    ScriptNullFree(req.script);
    assert NullFree(EncodeConfig(req));
  }
}

=== FILE: poller.dfy ===
/** The submit-then-poll generator `create_talk` (app.py:342-441).

    One run checks the API key, sends the request body built by `Payload`,
    checks the returned talk id, then polls the talk until it reaches a
    terminal status or the 300-second deadline passes. Every `yield` of the
    generator is one `Update`, the 6-tuple shown in the form. The remote
    service and the clock are an `Env` value, so a run is a pure function of
    the API key, the form and the environment. */
module Poller {
  import opened Options
  import opened Json
  import Payload

  /** Seconds the loop keeps polling after the talk was created. */
  const Timeout: real := 300.0

  /** Seconds slept after every poll that does not end the run. */
  const PollInterval: real := 2.0

  /** The most polls one run can make: every poll starts before the
      deadline, and polls are at least `PollInterval` apart. */
  const MaxPolls: nat := 150

  /** The result of one call into the remote service: the decoded JSON body,
      or the message of the exception it raised. */
  datatype Outcome = Returned(body: Json) | Raised(message: string)

  /** The remote service and the clock, as seen by one run:
      - `create`: the response to `POST /talks` with a given body;
      - `poll(n)`: the response to the `n`-th `GET /talks/{id}`, counting from 0;
      - `elapsed(n)`: `time.time() - start_time` read at the `n`-th test of the
        loop condition. */
  datatype Env = Env(create: Json -> Outcome, poll: nat -> Outcome, elapsed: nat -> real)

  /** The clock readings `create_talk` can observe: the first is taken after
      `start_time`, and the `time.sleep(2)` between two loop tests makes each
      reading at least two seconds later than the one before. */
  ghost predicate Clocked(env: Env) {
    && 0.0 <= env.elapsed(0)
    && forall n: nat :: env.elapsed(n) + PollInterval <= env.elapsed(n + 1)
  }

  /** The `gr.Video` component: hidden, or shown playing a URL. */
  datatype Video = Hidden | Shown(source: Json)

  /** One `yield` of the generator: talk id, status text, result URL, video,
      download status text and the debug log. */
  datatype Update = Update(
    talkId: Json,
    status: string,
    resultUrl: Json,
    video: Video,
    download: string,
    log: string)

  /** All the updates of one run, and how many `get_talk` calls it made. */
  datatype Trace = Trace(updates: seq<Update>, polls: nat)

  // ---- the updates ----

  const NoKeyUpdate := Update(JStr(""), "Error: No API key", JStr(""), Hidden, "", "Configure API key first")

  /** What the `except` clause yields for an exception with this message. */
  function ErrorUpdate(message: string): Update {
    Update(JStr(""), "Error", JStr(""), Hidden, "", "Error: " + message)
  }

  /** The creation response carried no truthy `id`. */
  function FailedUpdate(log: string): Update {
    Update(JStr(""), "Failed", JStr(""), Hidden, "", log)
  }

  /** The update yielded after every successful poll. */
  function ProgressUpdate(id: Json, body: Members, log: string): Update {
    Update(id, "Status: " + Str(StatusOf(body)), GetOr(body, "result_url", JStr("")), Hidden, "", log)
  }

  function CompletedUpdate(id: Json, url: Json, log: string): Update {
    Update(id, "Completed successfully", url, Shown(url), "", log)
  }

  /** The update after the loop: a terminal status other than success, or the deadline. */
  function StoppedUpdate(id: Json, status: Json, log: string): Update {
    Update(id, "Processing timed out or failed (status: " + Str(status) + ")", JStr(""), Hidden, "", log)
  }

  /** The message of the `AttributeError` raised by `.get` on a response that is not a dict. */
  function NoGetMessage(j: Json): string {
    "'" + TypeName(j) + "' object has no attribute 'get'"
  }

  /** The message of the `UnboundLocalError` raised when the loop body never
      ran and `current_status` is read after the loop (wording of Python 3.11 on). */
  const UnboundMessage := "cannot access local variable 'current_status' where it is not associated with a value"

  /** The update yielded after each successful poll, whose text is "Status: " and the status. */
  predicate IsProgress(u: Update) {
    "Status: " <= u.status
  }

  /** No update other than a progress update has status text starting with 'S'. */
  lemma NotProgress(u: Update)
    requires u.status != [] && u.status[0] != 'S'
    ensures !IsProgress(u)
  {
    assert "Status: "[0] == 'S';
  }

  // ---- reading responses ----

  /** `talk_status.get("status", "unknown")` */
  function StatusOf(body: Members): Json {
    GetOr(body, "status", JStr("unknown"))
  }

  /** `talk_status.get("result_url")` */
  function ResultUrlOf(body: Members): Json {
    GetOr(body, "result_url", JNull)
  }

  /** The statuses that end the loop (app.py:409, 422). */
  predicate IsTerminal(status: Json) {
    status == JStr("done") || status == JStr("failed") || status == JStr("error")
  }

  /** A response without `status` is reported as "Status: unknown", and one
      without `result_url` shows an empty result URL. */
  lemma MissingFieldsDefault(id: Json, ms: Members, log: string)
    ensures "status" !in Keys(ms) ==> ProgressUpdate(id, ms, log).status == "Status: unknown"
    ensures "result_url" !in Keys(ms) ==> ProgressUpdate(id, ms, log).resultUrl == JStr("")
  {
    LookupSpec(ms, "status");
    LookupSpec(ms, "result_url");
    assert Str(JStr("unknown")) == "unknown";
  }

  /** A `done` response with a truthy `result_url`. */
  predicate Succeeds(body: Members) {
    StatusOf(body) == JStr("done") && Truthy(ResultUrlOf(body))
  }

  function CreationLog(talk: Json): string {
    "Creation Response:\n" + Dump(talk)
  }

  /** The text one successful poll appends to the log. */
  function PollEntry(body: Members): string {
    "\n\nPolling Response (" + Str(StatusOf(body)) + "):\n" + Dump(JObj(body))
  }

  // ---- the run ----

  /** What `create_talk` yields once the loop has ended without success:
      the failure message naming the last status, or, when the loop body
      never ran, the error raised by reading `current_status`. */
  function AfterLoop(id: Json, last: Option<Json>, log: string): Update {
    match last
    case Some(status) => StoppedUpdate(id, status, log)
    case None => ErrorUpdate(UnboundMessage)
  }

  /** The polling loop from its `k`-th test on, with the log so far and the
      status read by the previous iteration, if any. */
  function PollLoop(env: Env, id: Json, k: nat, log: string, last: Option<Json>): (r: Trace)
    requires Clocked(env)
    requires k <= MaxPolls
    requires PollInterval * k as real <= env.elapsed(k)
    ensures k <= r.polls <= MaxPolls
    ensures 1 <= |r.updates|
    decreases MaxPolls - k
  {
    if env.elapsed(k) >= Timeout then
      Trace([AfterLoop(id, last, log)], k)
    else
      match env.poll(k)
      case Raised(message) => Trace([ErrorUpdate(message)], k + 1)
      case Returned(body) =>
        if !body.JObj? then
          Trace([ErrorUpdate(NoGetMessage(body))], k + 1)
        else
          var ms := body.members;
          var log' := log + PollEntry(ms);
          var progress := ProgressUpdate(id, ms, log');
          if Succeeds(ms) then
            Trace([progress, CompletedUpdate(id, ResultUrlOf(ms), log')], k + 1)
          else if IsTerminal(StatusOf(ms)) then
            Trace([progress, StoppedUpdate(id, StatusOf(ms), log')], k + 1)
          else
            var rest := PollLoop(env, id, k + 1, log', Some(StatusOf(ms)));
            Trace([progress] + rest.updates, rest.polls)
  }

  /** One click of "Create Talk": the whole stream of updates. */
  function CreateTalk(apiKey: string, form: Payload.Form, env: Env): (r: Trace)
    requires Clocked(env)
    ensures r.polls <= MaxPolls
    ensures 1 <= |r.updates|
    ensures apiKey == "" ==> r.polls == 0 && r.updates == [NoKeyUpdate]
  {
    if apiKey == "" then
      Trace([NoKeyUpdate], 0)
    else
      match env.create(Payload.BuildPayload(form))
      case Raised(message) => Trace([ErrorUpdate(message)], 0)
      case Returned(talk) =>
        if !talk.JObj? then
          Trace([ErrorUpdate(NoGetMessage(talk))], 0)
        else if !Truthy(GetOr(talk.members, "id", JNull)) then
          Trace([FailedUpdate(CreationLog(talk))], 0)
        else
          PollLoop(env, GetOr(talk.members, "id", JNull), 0, CreationLog(talk), None)
  }

  // ---- what a run does, stated independently of the loop ----

  /** The text the given poll outcome adds to the log: the entry of a dict
      response, nothing otherwise (such a poll ends the run). */
  function EntryOf(o: Outcome): string {
    match o
    case Returned(JObj(ms)) => PollEntry(ms)
    case _ => ""
  }

  /** The log after the polls `k`..`n-1`, starting from `log`. */
  function LogAt(env: Env, log: string, k: nat, n: nat): string
    decreases n - k
  {
    if n <= k then log else LogAt(env, log + EntryOf(env.poll(k)), k + 1, n)
  }

  /** The loop goes on after this poll: a dict response whose status is not terminal. */
  predicate Continues(o: Outcome) {
    o.Returned? && o.body.JObj? && !IsTerminal(StatusOf(o.body.members))
  }

  /** The loop, entered at its `k`-th test, makes exactly the polls `k`..`n-1`:
      each starts before the deadline, each but the last lets the loop go
      on, and after the last one the loop ends or the deadline has passed. */
  ghost predicate StopsAt(env: Env, k: nat, n: nat) {
    && k <= n
    && (forall i: nat :: k <= i < n ==> env.elapsed(i) < Timeout)
    && (forall i: nat :: k <= i < n - 1 ==> Continues(env.poll(i)))
    && ((k < n && !Continues(env.poll(n - 1))) || Timeout <= env.elapsed(n))
  }

  /** A run ends by an exception in its last poll: `get_talk` raised, or
      returned something other than a dict. */
  predicate Crashed(env: Env, k: nat, n: nat) {
    k < n && !(env.poll(n - 1).Returned? && env.poll(n - 1).body.JObj?)
  }

  /** At most one number of polls fits that description. */
  lemma StopsAtUnique(env: Env, k: nat, n: nat, m: nat)
    requires StopsAt(env, k, n) && StopsAt(env, k, m)
    ensures n == m
  {
  }

  lemma StopsAtOnce(env: Env, k: nat)
    requires env.elapsed(k) < Timeout && !Continues(env.poll(k))
    ensures StopsAt(env, k, k + 1)
  {
  }

  lemma StopsAtLater(env: Env, k: nat, n: nat)
    requires env.elapsed(k) < Timeout && Continues(env.poll(k))
    requires StopsAt(env, k + 1, n)
    ensures StopsAt(env, k, n)
  {
  }

  /** The loop makes exactly the polls `StopsAt` describes. */
  lemma {:induction false} PollLoopStopsAt(env: Env, id: Json, k: nat, log: string, last: Option<Json>)
    requires Clocked(env)
    requires k <= MaxPolls
    requires PollInterval * k as real <= env.elapsed(k)
    ensures StopsAt(env, k, PollLoop(env, id, k, log, last).polls)
    decreases MaxPolls - k
  {
    if Timeout <= env.elapsed(k) {
      assert PollLoop(env, id, k, log, last).polls == k;
    } else if !Continues(env.poll(k)) {
      FinalOnce(env, id, k, log, last);
      StopsAtOnce(env, k);
    } else {
      var ms := env.poll(k).body.members;
      PollLoopStep(env, id, k, log, last);
      var rest := PollLoop(env, id, k + 1, log + PollEntry(ms), Some(StatusOf(ms)));
      PollLoopStopsAt(env, id, k + 1, log + PollEntry(ms), Some(StatusOf(ms)));
      StopsAtLater(env, k, rest.polls);
    }
  }

  /** One turn of the loop that goes on: the progress update, then the rest of the run. */
  lemma PollLoopStep(env: Env, id: Json, k: nat, log: string, last: Option<Json>)
    requires Clocked(env)
    requires k <= MaxPolls
    requires PollInterval * k as real <= env.elapsed(k)
    requires env.elapsed(k) < Timeout && Continues(env.poll(k))
    ensures var ms := env.poll(k).body.members;
      var log' := log + PollEntry(ms);
      && k + 1 <= MaxPolls
      && PollInterval * (k + 1) as real <= env.elapsed(k + 1)
      && PollLoop(env, id, k, log, last)
         == var rest := PollLoop(env, id, k + 1, log', Some(StatusOf(ms)));
            Trace([ProgressUpdate(id, ms, log')] + rest.updates, rest.polls)
  {
  }

  /** Every update of `updates` but the last reports one poll from `k` on, in
      order: the poll returned a dict, and the update shows its status and
      `result_url` under the log that ends with that poll's entry. */
  ghost predicate ReportsPolls(env: Env, id: Json, k: nat, log: string, updates: seq<Update>) {
    forall i :: 0 <= i < |updates| - 1 ==> ReportsPoll(env, id, k, log, k + i, updates[i])
  }

  /** Update `u` reports poll `n` of a loop entered at test `k` with log `log`. */
  ghost predicate ReportsPoll(env: Env, id: Json, k: nat, log: string, n: nat, u: Update) {
    && env.poll(n).Returned?
    && env.poll(n).body.JObj?
    && u == ProgressUpdate(id, env.poll(n).body.members, LogAt(env, log, k, n + 1))
  }

  /** Prepending the report of poll `k` to the reports of the polls after it. */
  lemma ReportsCons(env: Env, id: Json, k: nat, log: string, rest: seq<Update>)
    requires Continues(env.poll(k))
    requires var ms := env.poll(k).body.members;
      ReportsPolls(env, id, k + 1, log + PollEntry(ms), rest)
    ensures var ms := env.poll(k).body.members;
      ReportsPolls(env, id, k, log, [ProgressUpdate(id, ms, log + PollEntry(ms))] + rest)
  {
    var ms := env.poll(k).body.members;
    var log' := log + PollEntry(ms);
    var us := [ProgressUpdate(id, ms, log')] + rest;
    forall i | 0 <= i < |us| - 1
      ensures ReportsPoll(env, id, k, log, k + i, us[i])
    {
      if i == 0 {
        ReportsFirst(env, id, k, log);
      } else {
        assert us[i] == rest[i - 1];
        assert ReportsPoll(env, id, k + 1, log', (k + 1) + (i - 1), rest[i - 1]);
        ReportsShift(env, id, k, log, k + i, rest[i - 1]);
      }
    }
  }

  /** The progress update of poll `k` reports that poll. */
  lemma ReportsFirst(env: Env, id: Json, k: nat, log: string)
    requires Continues(env.poll(k))
    ensures var ms := env.poll(k).body.members;
      ReportsPoll(env, id, k, log, k, ProgressUpdate(id, ms, log + PollEntry(ms)))
  {
    assert LogAt(env, log, k, k + 1) == log + PollEntry(env.poll(k).body.members);
  }

  /** A report of a later poll under the log extended by poll `k` is a
      report under the log before poll `k`. */
  lemma ReportsShift(env: Env, id: Json, k: nat, log: string, n: nat, u: Update)
    requires Continues(env.poll(k))
    requires k < n
    requires ReportsPoll(env, id, k + 1, log + PollEntry(env.poll(k).body.members), n, u)
    ensures ReportsPoll(env, id, k, log, n, u)
  {
    assert LogAt(env, log, k, n + 1) == LogAt(env, log + PollEntry(env.poll(k).body.members), k + 1, n + 1);
  }

  /** Every update but the last reports one poll, in order. */
  lemma {:induction false} PollLoopProgress(env: Env, id: Json, k: nat, log: string, last: Option<Json>)
    requires Clocked(env)
    requires k <= MaxPolls
    requires PollInterval * k as real <= env.elapsed(k)
    ensures ReportsPolls(env, id, k, log, PollLoop(env, id, k, log, last).updates)
    decreases MaxPolls - k
  {
    if env.elapsed(k) < Timeout && Continues(env.poll(k)) {
      var ms := env.poll(k).body.members;
      var log' := log + PollEntry(ms);
      PollLoopStep(env, id, k, log, last);
      PollLoopProgress(env, id, k + 1, log', Some(StatusOf(ms)));
      ReportsCons(env, id, k, log, PollLoop(env, id, k + 1, log', Some(StatusOf(ms))).updates);
    } else if env.elapsed(k) < Timeout {
      ProgressOnce(env, id, k, log, last);
    } else {
      FinalNow(env, id, k, log, last);
    }
  }

  lemma ProgressOnce(env: Env, id: Json, k: nat, log: string, last: Option<Json>)
    requires Clocked(env)
    requires k <= MaxPolls
    requires PollInterval * k as real <= env.elapsed(k)
    requires env.elapsed(k) < Timeout && !Continues(env.poll(k))
    ensures ReportsPolls(env, id, k, log, PollLoop(env, id, k, log, last).updates)
  {
    if Crashed(env, k, k + 1) {
      PollLoopCrash(env, id, k, log, last);
    } else {
      PollLoopStops(env, id, k, log, last);
    }
  }

  /** The last update of a run whose loop, entered at its `k`-th test, made
      the polls `k`..`n-1`: when no poll was made, what follows the loop;
      after an exception in the last poll, the error update; after success,
      "Completed successfully" with the result URL; otherwise (a terminal
      status or the deadline) the failure message naming the last status. */
  function FinalOf(env: Env, id: Json, k: nat, n: nat, log: string, last: Option<Json>): Update {
    if n <= k then AfterLoop(id, last, log)
    else
      match env.poll(n - 1)
      case Raised(message) => ErrorUpdate(message)
      case Returned(body) =>
        if !body.JObj? then ErrorUpdate(NoGetMessage(body))
        else if Succeeds(body.members) then CompletedUpdate(id, ResultUrlOf(body.members), LogAt(env, log, k, n))
        else StoppedUpdate(id, StatusOf(body.members), LogAt(env, log, k, n))
  }

  lemma FinalOnce(env: Env, id: Json, k: nat, log: string, last: Option<Json>)
    requires Clocked(env)
    requires k <= MaxPolls
    requires PollInterval * k as real <= env.elapsed(k)
    requires env.elapsed(k) < Timeout && !Continues(env.poll(k))
    ensures var r := PollLoop(env, id, k, log, last);
      && r.polls == k + 1
      && |r.updates| == (if Crashed(env, k, k + 1) then 1 else 2)
      && r.updates[|r.updates| - 1] == FinalOf(env, id, k, k + 1, log, last)
    ensures EndsAsFinal(env, id, k, log, last, PollLoop(env, id, k, log, last))
  {
    if Crashed(env, k, k + 1) {
      PollLoopCrash(env, id, k, log, last);
    } else {
      PollLoopStops(env, id, k, log, last);
    }
  }


  /** A poll that raised or answered with something other than a dict ends the run with an error. */
  lemma PollLoopCrash(env: Env, id: Json, k: nat, log: string, last: Option<Json>)
    requires Clocked(env)
    requires k <= MaxPolls
    requires PollInterval * k as real <= env.elapsed(k)
    requires env.elapsed(k) < Timeout && Crashed(env, k, k + 1)
    ensures PollLoop(env, id, k, log, last) == Trace([FinalOf(env, id, k, k + 1, log, last)], k + 1)
  {
    match env.poll(k)
    case Raised(m) =>
      assert PollLoop(env, id, k, log, last) == Trace([ErrorUpdate(m)], k + 1);
    case Returned(b) =>
      assert PollLoop(env, id, k, log, last) == Trace([ErrorUpdate(NoGetMessage(b))], k + 1);
  }

  /** A dict with a terminal status: its progress update, then the completed or stopped update. */
  lemma PollLoopStops(env: Env, id: Json, k: nat, log: string, last: Option<Json>)
    requires Clocked(env)
    requires k <= MaxPolls
    requires PollInterval * k as real <= env.elapsed(k)
    requires env.elapsed(k) < Timeout && !Continues(env.poll(k)) && !Crashed(env, k, k + 1)
    ensures PollLoop(env, id, k, log, last)
         == Trace([ProgressUpdate(id, env.poll(k).body.members, LogAt(env, log, k, k + 1)),
                   FinalOf(env, id, k, k + 1, log, last)], k + 1)
  {
    var ms := env.poll(k).body.members;
    var log' := log + PollEntry(ms);
    assert LogAt(env, log, k, k + 1) == log';
    if Succeeds(ms) {
      assert PollLoop(env, id, k, log, last)
          == Trace([ProgressUpdate(id, ms, log'), CompletedUpdate(id, ResultUrlOf(ms), log')], k + 1);
    } else {
      assert PollLoop(env, id, k, log, last)
          == Trace([ProgressUpdate(id, ms, log'), StoppedUpdate(id, StatusOf(ms), log')], k + 1);
    }
  }

  lemma FinalLater(env: Env, id: Json, k: nat, n: nat, log: string, last: Option<Json>)
    requires Continues(env.poll(k))
    requires k + 1 <= n
    ensures var ms := env.poll(k).body.members;
      && FinalOf(env, id, k + 1, n, log + PollEntry(ms), Some(StatusOf(ms))) == FinalOf(env, id, k, n, log, last)
      && Crashed(env, k + 1, n) == Crashed(env, k, n)
  {
    var ms := env.poll(k).body.members;
    assert LogAt(env, log, k, n) == LogAt(env, log + PollEntry(ms), k + 1, n);
  }

  /** Trace `r`, of the loop entered at test `k`, has one update per poll
      that did not raise, then its final update `FinalOf`. */
  ghost predicate EndsAsFinal(env: Env, id: Json, k: nat, log: string, last: Option<Json>, r: Trace) {
    && 1 <= |r.updates|
    && |r.updates| == r.polls - k + (if Crashed(env, k, r.polls) then 0 else 1)
    && r.updates[|r.updates| - 1] == FinalOf(env, id, k, r.polls, log, last)
  }

  /** Prepending a progress update to a run that went on after poll `k`. */
  lemma FinalCons(env: Env, id: Json, k: nat, log: string, last: Option<Json>, p: Update, rest: Trace)
    requires Continues(env.poll(k))
    requires k + 1 <= rest.polls
    requires var ms := env.poll(k).body.members;
      EndsAsFinal(env, id, k + 1, log + PollEntry(ms), Some(StatusOf(ms)), rest)
    ensures EndsAsFinal(env, id, k, log, last, Trace([p] + rest.updates, rest.polls))
  {
    FinalLater(env, id, k, rest.polls, log, last);
  }

  lemma FinalNow(env: Env, id: Json, k: nat, log: string, last: Option<Json>)
    requires Clocked(env)
    requires k <= MaxPolls
    requires PollInterval * k as real <= env.elapsed(k)
    requires Timeout <= env.elapsed(k)
    ensures EndsAsFinal(env, id, k, log, last, PollLoop(env, id, k, log, last))
  {
    assert PollLoop(env, id, k, log, last) == Trace([AfterLoop(id, last, log)], k);
  }

  /** The last update and the number of updates follow from how the last
      poll ended: a poll that raised yields no update of its own, every
      other poll yields one, and the run adds its final update. */
  lemma {:induction false} PollLoopFinal(env: Env, id: Json, k: nat, log: string, last: Option<Json>)
    requires Clocked(env)
    requires k <= MaxPolls
    requires PollInterval * k as real <= env.elapsed(k)
    ensures EndsAsFinal(env, id, k, log, last, PollLoop(env, id, k, log, last))
    decreases MaxPolls - k
  {
    if Timeout <= env.elapsed(k) {
      FinalNow(env, id, k, log, last);
    } else if !Continues(env.poll(k)) {
      FinalOnce(env, id, k, log, last);
    } else {
      var ms := env.poll(k).body.members;
      var log' := log + PollEntry(ms);
      PollLoopStep(env, id, k, log, last);
      PollLoopFinal(env, id, k + 1, log', Some(StatusOf(ms)));
      FinalCons(env, id, k, log, last, ProgressUpdate(id, ms, log'), PollLoop(env, id, k + 1, log', Some(StatusOf(ms))));
    }
  }

  // ---- the log only grows ----

  /** The log after the polls `k`..`n-1` is the log after `k`..`m-1`, then `m`..`n-1`. */
  lemma {:induction false} LogAtSplit(env: Env, log: string, k: nat, m: nat, n: nat)
    requires k <= m <= n
    ensures LogAt(env, log, k, n) == LogAt(env, LogAt(env, log, k, m), m, n)
    decreases m - k
  {
    if k < m {
      LogAtSplit(env, log + EntryOf(env.poll(k)), k + 1, m, n);
    }
  }

  /** Polling only appends to the log. */
  lemma {:induction false} LogAtExtends(env: Env, log: string, k: nat, n: nat)
    ensures log <= LogAt(env, log, k, n)
    decreases n - k
  {
    if k < n {
      var log' := log + EntryOf(env.poll(k));
      LogAtExtends(env, log', k + 1, n);
      assert log <= log';
    }
  }

  lemma LogAtGrows(env: Env, log: string, k: nat, m: nat, n: nat)
    requires k <= m <= n
    ensures log <= LogAt(env, log, k, m) <= LogAt(env, log, k, n)
  {
    LogAtExtends(env, log, k, m);
    LogAtSplit(env, log, k, m, n);
    LogAtExtends(env, LogAt(env, log, k, m), m, n);
  }

  // ---- one click, start to end ----

  /** The creation response, when it is a dict with a truthy `id`: exactly
      then the run reaches the polling loop. */
  function Created(apiKey: string, form: Payload.Form, env: Env): Option<Members> {
    if apiKey == "" then None
    else
      match env.create(Payload.BuildPayload(form))
      case Returned(JObj(ms)) => if Truthy(GetOr(ms, "id", JNull)) then Some(ms) else None
      case _ => None
  }

  /** Without a key, when creating raises or returns no dict, or when the
      response has no truthy `id`, the run yields exactly one update, with
      an empty talk id, and polls nothing: "Error: No API key", "Error" or
      "Failed" respectively. */
  lemma EarlyExit(apiKey: string, form: Payload.Form, env: Env)
    requires Clocked(env)
    requires Created(apiKey, form, env).None?
    ensures var r := CreateTalk(apiKey, form, env);
      var o := env.create(Payload.BuildPayload(form));
      && r.polls == 0
      && |r.updates| == 1
      && r.updates[0].talkId == JStr("")
      && r.updates[0].video == Hidden
      && r.updates[0].status == (if apiKey == "" then "Error: No API key"
                                 else if o.Returned? && o.body.JObj? then "Failed"
                                 else "Error")
      && (apiKey != "" && o.Returned? && o.body.JObj? ==> r.updates[0].log == CreationLog(o.body))
  {
  }

  /** The updates `r` of a run whose loop starts at test 0 with talk id `id`
      and log `log`: which polls it makes, what each but the last update
      reports, how many updates there are and what the last one is. */
  ghost predicate RunOfLoop(env: Env, id: Json, log: string, r: Trace) {
    && StopsAt(env, 0, r.polls)
    && ReportsPolls(env, id, 0, log, r.updates)
    && |r.updates| == r.polls + (if Crashed(env, 0, r.polls) then 0 else 1)
    && 1 <= |r.updates|
    && r.updates[|r.updates| - 1] == FinalOf(env, id, 0, r.polls, log, None)
  }

  /** A run that reached the loop: its polls, its progress updates and its
      last update, each stated without the loop. */
  lemma RunFromCreated(apiKey: string, form: Payload.Form, env: Env, ms: Members)
    requires Clocked(env)
    requires Created(apiKey, form, env) == Some(ms)
    ensures var r := CreateTalk(apiKey, form, env);
      var id := GetOr(ms, "id", JNull);
      var log := CreationLog(JObj(ms));
      && Truthy(id)
      && RunOfLoop(env, id, log, r)
  {
    var id := GetOr(ms, "id", JNull);
    var log := CreationLog(JObj(ms));
    assert CreateTalk(apiKey, form, env) == PollLoop(env, id, 0, log, None);
    PollLoopStopsAt(env, id, 0, log, None);
    PollLoopProgress(env, id, 0, log, None);
    PollLoopFinal(env, id, 0, log, None);
  }

  /** A poll answering `done` with a truthy `result_url` is the last one: the
      next update is the last, reads "Completed successfully" and shows
      exactly that URL. */
  lemma SuccessEndsRun(apiKey: string, form: Payload.Form, env: Env, ms: Members, i: nat, res: Members)
    requires Clocked(env)
    requires Created(apiKey, form, env) == Some(ms)
    requires i < CreateTalk(apiKey, form, env).polls
    requires env.poll(i) == Returned(JObj(res)) && Succeeds(res)
    ensures var r := CreateTalk(apiKey, form, env);
      && r.polls == i + 1
      && |r.updates| == i + 2
      && r.updates[i + 1].status == "Completed successfully"
      && r.updates[i + 1].resultUrl == ResultUrlOf(res)
      && r.updates[i + 1].video == Shown(ResultUrlOf(res))
  {
    RunFromCreated(apiKey, form, env, ms);
    SuccessInLoop(env, GetOr(ms, "id", JNull), CreationLog(JObj(ms)), CreateTalk(apiKey, form, env), i, res);
  }

  lemma SuccessInLoop(env: Env, id: Json, log: string, r: Trace, i: nat, res: Members)
    requires RunOfLoop(env, id, log, r)
    requires i < r.polls
    requires env.poll(i) == Returned(JObj(res)) && Succeeds(res)
    ensures r.polls == i + 1 && |r.updates| == i + 2
    ensures r.updates[i + 1] == CompletedUpdate(id, ResultUrlOf(res), LogAt(env, log, 0, i + 1))
  {
    assert !Continues(env.poll(i));
  }

  /** A `failed` or `error` status, or `done` without a truthy `result_url`,
      ends the polling: that poll is the last, and the final update names
      the status with an empty result URL. */
  lemma TerminalStatusEndsRun(apiKey: string, form: Payload.Form, env: Env, ms: Members, i: nat, res: Members)
    requires Clocked(env)
    requires Created(apiKey, form, env) == Some(ms)
    requires i < CreateTalk(apiKey, form, env).polls
    requires env.poll(i) == Returned(JObj(res)) && IsTerminal(StatusOf(res)) && !Succeeds(res)
    ensures var r := CreateTalk(apiKey, form, env);
      && r.polls == i + 1
      && |r.updates| == i + 2
      && r.updates[i + 1].status == "Processing timed out or failed (status: " + Str(StatusOf(res)) + ")"
      && r.updates[i + 1].resultUrl == JStr("")
  {
    RunFromCreated(apiKey, form, env, ms);
    TerminalInLoop(env, GetOr(ms, "id", JNull), CreationLog(JObj(ms)), CreateTalk(apiKey, form, env), i, res);
  }

  lemma TerminalInLoop(env: Env, id: Json, log: string, r: Trace, i: nat, res: Members)
    requires RunOfLoop(env, id, log, r)
    requires i < r.polls
    requires env.poll(i) == Returned(JObj(res)) && IsTerminal(StatusOf(res)) && !Succeeds(res)
    ensures r.polls == i + 1 && |r.updates| == i + 2
    ensures r.updates[i + 1] == StoppedUpdate(id, StatusOf(res), LogAt(env, log, 0, i + 1))
  {
    assert !Continues(env.poll(i));
  }

  /** Any other status, "rejected" among them, keeps the loop polling: the
      poll after it happens unless the deadline has passed, and when the
      run stops there the final update names that status. */
  lemma OtherStatusKeepsPolling(apiKey: string, form: Payload.Form, env: Env, ms: Members, i: nat, res: Members)
    requires Clocked(env)
    requires Created(apiKey, form, env) == Some(ms)
    requires i < CreateTalk(apiKey, form, env).polls
    requires env.poll(i) == Returned(JObj(res)) && !IsTerminal(StatusOf(res))
    ensures var r := CreateTalk(apiKey, form, env);
      i + 1 < r.polls || Timeout <= env.elapsed(i + 1)
    ensures var r := CreateTalk(apiKey, form, env);
      i + 1 == r.polls ==>
        && |r.updates| == i + 2
        && r.updates[i + 1].status == "Processing timed out or failed (status: " + Str(StatusOf(res)) + ")"
        && r.updates[i + 1].resultUrl == JStr("")
  {
    RunFromCreated(apiKey, form, env, ms);
    OtherInLoop(env, GetOr(ms, "id", JNull), CreationLog(JObj(ms)), CreateTalk(apiKey, form, env), i, res);
  }

  lemma OtherInLoop(env: Env, id: Json, log: string, r: Trace, i: nat, res: Members)
    requires RunOfLoop(env, id, log, r)
    requires i < r.polls
    requires env.poll(i) == Returned(JObj(res)) && !IsTerminal(StatusOf(res))
    ensures i + 1 < r.polls || Timeout <= env.elapsed(i + 1)
    ensures i + 1 == r.polls ==>
      && |r.updates| == i + 2
      && r.updates[i + 1] == StoppedUpdate(id, StatusOf(res), LogAt(env, log, 0, i + 1))
  {
    assert Continues(env.poll(i));
  }

  /** "rejected" is not one of the statuses that end the loop. */
  lemma RejectedIsNotTerminal()
    ensures !IsTerminal(JStr("rejected"))
    ensures Continues(Returned(JObj([("status", JStr("rejected"))])))
  {
    assert StatusOf([("status", JStr("rejected"))]) == JStr("rejected");
  }

  /** The last update of a run is its only update that is not a progress
      update: it reports success, failure, the deadline or an error. */
  lemma OneFinalUpdate(apiKey: string, form: Payload.Form, env: Env)
    requires Clocked(env)
    ensures var r := CreateTalk(apiKey, form, env);
      && (forall i :: 0 <= i < |r.updates| - 1 ==> IsProgress(r.updates[i]))
      && !IsProgress(r.updates[|r.updates| - 1])
  {
    match Created(apiKey, form, env)
    case None =>
      EarlyExit(apiKey, form, env);
      NotProgress(CreateTalk(apiKey, form, env).updates[0]);
    case Some(ms) =>
      RunFromCreated(apiKey, form, env, ms);
      LoopShape(env, GetOr(ms, "id", JNull), CreationLog(JObj(ms)), CreateTalk(apiKey, form, env));
  }

  lemma LoopShape(env: Env, id: Json, log: string, r: Trace)
    requires RunOfLoop(env, id, log, r)
    ensures forall i :: 0 <= i < |r.updates| - 1 ==> IsProgress(r.updates[i])
    ensures !IsProgress(r.updates[|r.updates| - 1])
  {
    forall i | 0 <= i < |r.updates| - 1 ensures IsProgress(r.updates[i]) {
      ProgressReported(env, id, log, r.updates, i);
    }
    FinalNotProgress(env, id, 0, r.polls, log, None);
  }

  /** No final update reads "Status: ...". */
  lemma FinalNotProgress(env: Env, id: Json, k: nat, n: nat, log: string, last: Option<Json>)
    ensures !IsProgress(FinalOf(env, id, k, n, log, last))
  {
    var u := FinalOf(env, id, k, n, log, last);
    if n <= k && last.Some? {
      StoppedNotProgress(id, last.value, log);
    } else if n > k && env.poll(n - 1).Returned? && env.poll(n - 1).body.JObj?
              && !Succeeds(env.poll(n - 1).body.members) {
      StoppedNotProgress(id, StatusOf(env.poll(n - 1).body.members), LogAt(env, log, k, n));
    } else {
      NotProgress(u);
    }
  }

  lemma StoppedNotProgress(id: Json, status: Json, log: string)
    ensures !IsProgress(StoppedUpdate(id, status, log))
  {
    var u := StoppedUpdate(id, status, log);
    var head := "Processing timed out or failed (status: ";
    assert u.status == head + (Str(status) + ")");
    assert u.status[0] == head[0];
    NotProgress(u);
  }

  /** Every poll the run makes starts before the deadline, so it makes at
      most `MaxPolls` of them and every update after the first poll
      comes from a poll or ends the run. */
  lemma RunBounded(apiKey: string, form: Payload.Form, env: Env)
    requires Clocked(env)
    ensures var r := CreateTalk(apiKey, form, env);
      && r.polls <= MaxPolls
      && (forall i: nat :: i < r.polls ==> env.elapsed(i) < Timeout)
      && |r.updates| <= r.polls + 1
  {
    match Created(apiKey, form, env)
    case None => EarlyExit(apiKey, form, env);
    case Some(ms) => RunFromCreated(apiKey, form, env, ms);
  }

  /** Polls that never leave a non-terminal status run into the deadline,
      and the last update names that status. */
  lemma StuckRunTimesOut(apiKey: string, form: Payload.Form, env: Env, ms: Members, status: Json)
    requires Clocked(env)
    requires Created(apiKey, form, env) == Some(ms)
    requires env.elapsed(0) < Timeout
    requires !IsTerminal(status)
    requires forall n: nat :: env.poll(n).Returned? && env.poll(n).body.JObj? && StatusOf(env.poll(n).body.members) == status
    ensures var r := CreateTalk(apiKey, form, env);
      && 1 <= r.polls
      && Timeout <= env.elapsed(r.polls)
      && |r.updates| == r.polls + 1
      && r.updates[r.polls].status == "Processing timed out or failed (status: " + Str(status) + ")"
  {
    RunFromCreated(apiKey, form, env, ms);
    StuckInLoop(env, GetOr(ms, "id", JNull), CreationLog(JObj(ms)), CreateTalk(apiKey, form, env), status);
  }

  lemma StuckInLoop(env: Env, id: Json, log: string, r: Trace, status: Json)
    requires RunOfLoop(env, id, log, r)
    requires env.elapsed(0) < Timeout
    requires !IsTerminal(status)
    requires forall n: nat :: env.poll(n).Returned? && env.poll(n).body.JObj? && StatusOf(env.poll(n).body.members) == status
    ensures 1 <= r.polls
    ensures Timeout <= env.elapsed(r.polls)
    ensures |r.updates| == r.polls + 1
    ensures r.updates[r.polls] == StoppedUpdate(id, status, LogAt(env, log, 0, r.polls))
  {
    assert 1 <= r.polls;
    assert Continues(env.poll(r.polls - 1));
  }

  /** Polls that keep answering "started" end in
      "Processing timed out or failed (status: started)". */
  lemma StartedForeverTimesOut(apiKey: string, form: Payload.Form, env: Env, ms: Members)
    requires Clocked(env)
    requires Created(apiKey, form, env) == Some(ms)
    requires env.elapsed(0) < Timeout
    requires forall n: nat :: env.poll(n).Returned? && env.poll(n).body.JObj? && StatusOf(env.poll(n).body.members) == JStr("started")
    ensures var r := CreateTalk(apiKey, form, env);
      r.updates[|r.updates| - 1].status == "Processing timed out or failed (status: started)"
  {
    StuckRunTimesOut(apiKey, form, env, ms, JStr("started"));
    StoppedStartedText();
  }

  lemma StoppedStartedText()
    ensures "Processing timed out or failed (status: " + Str(JStr("started")) + ")"
         == "Processing timed out or failed (status: started)"
  {
    assert Str(JStr("started")) == "started";
  }

  /** Apart from an "Error" update, every update's log starts with the
      creation response and extends the log of every update before it. */
  lemma LogsGrow(apiKey: string, form: Payload.Form, env: Env, ms: Members, i: nat, j: nat)
    requires Clocked(env)
    requires Created(apiKey, form, env) == Some(ms)
    requires i <= j < |CreateTalk(apiKey, form, env).updates|
    requires CreateTalk(apiKey, form, env).updates[j].status != "Error"
    ensures var r := CreateTalk(apiKey, form, env);
      CreationLog(JObj(ms)) <= r.updates[i].log <= r.updates[j].log
  {
    RunFromCreated(apiKey, form, env, ms);
    LogsGrowInLoop(env, GetOr(ms, "id", JNull), CreationLog(JObj(ms)), CreateTalk(apiKey, form, env), i, j);
  }

  lemma LogsGrowInLoop(env: Env, id: Json, log: string, r: Trace, i: nat, j: nat)
    requires RunOfLoop(env, id, log, r)
    requires i <= j < |r.updates|
    requires r.updates[j].status != "Error"
    ensures log <= r.updates[i].log <= r.updates[j].log
  {
    var last := |r.updates| - 1;
    var ni := if i < last then i + 1 else r.polls;
    var nj := if j < last then j + 1 else r.polls;
    LogOfLoopUpdate(env, id, log, r, j);
    if i < j {
      assert ReportsPoll(env, id, 0, log, 0 + i, r.updates[i]);
      assert r.updates[i].status[0] == 'S';
    }
    LogOfLoopUpdate(env, id, log, r, i);
    LogAtGrows(env, log, 0, ni, nj);
  }

  /** The log of an update that is not an "Error" one: the creation
      response and the entries of every poll up to that update's own. */
  lemma LogOfUpdate(apiKey: string, form: Payload.Form, env: Env, ms: Members, i: nat)
    requires Clocked(env)
    requires Created(apiKey, form, env) == Some(ms)
    requires i < |CreateTalk(apiKey, form, env).updates|
    requires CreateTalk(apiKey, form, env).updates[i].status != "Error"
    ensures var r := CreateTalk(apiKey, form, env);
      && (i < |r.updates| - 1 ==> i + 1 <= r.polls)
      && r.updates[i].log
         == LogAt(env, CreationLog(JObj(ms)), 0, if i < |r.updates| - 1 then i + 1 else r.polls)
  {
    RunFromCreated(apiKey, form, env, ms);
    LogOfLoopUpdate(env, GetOr(ms, "id", JNull), CreationLog(JObj(ms)), CreateTalk(apiKey, form, env), i);
  }

  lemma LogOfLoopUpdate(env: Env, id: Json, log: string, r: Trace, i: nat)
    requires RunOfLoop(env, id, log, r)
    requires i < |r.updates| && r.updates[i].status != "Error"
    ensures i < |r.updates| - 1 ==> i + 1 <= r.polls
    ensures r.updates[i].log == LogAt(env, log, 0, if i < |r.updates| - 1 then i + 1 else r.polls)
  {
    if i == |r.updates| - 1 {
      FinalLog(env, id, log, r.polls, r.updates[i]);
    } else {
      assert |r.updates| <= r.polls + 1;
    }
  }

  /** The last update of a run that reached the loop, unless it is an
      "Error" one, carries the log of all its polls. */
  lemma FinalLog(env: Env, id: Json, log: string, n: nat, u: Update)
    requires u == FinalOf(env, id, 0, n, log, None)
    requires u.status != "Error"
    ensures 1 <= n && !Crashed(env, 0, n)
    ensures u.log == LogAt(env, log, 0, n)
  {
  }

  // ---- a worked run ----

  /** The talk goes through "created" and "started" to "done" with result URL `url`. */
  function SamplePoll(url: string, n: nat): Outcome {
    if n == 0 then Returned(JObj([("status", JStr("created"))]))
    else if n == 1 then Returned(JObj([("status", JStr("started"))]))
    else Returned(JObj(DoneBody(url)))
  }

  function DoneBody(url: string): Members {
    [("status", JStr("done")), ("result_url", JStr(url))]
  }

  /** The service creates talk `id` whatever the request; each loop test
      comes two seconds after the previous one. */
  function SampleEnv(id: string, url: string): Env {
    Env(_ => Returned(JObj([("id", JStr(id))])), (n: nat) => SamplePoll(url, n), (n: nat) => 2.0 * n as real)
  }

  lemma SampleStatuses(id: string, url: string)
    ensures StatusOf([("status", JStr("created"))]) == JStr("created")
    ensures StatusOf([("status", JStr("started"))]) == JStr("started")
    ensures StatusOf(DoneBody(url)) == JStr("done")
    ensures ResultUrlOf(DoneBody(url)) == JStr(url)
    ensures GetOr([("id", JStr(id))], "id", JNull) == JStr(id)
  {
    var done := DoneBody(url);
    assert done[1..] == [("result_url", JStr(url))];
    assert done[1..][1..] == [];
    assert Lookup(done[1..], "status") == None;
    assert Lookup(done[1..], "result_url") == Some(JStr(url));
    var talk: Members := [("id", JStr(id))];
    assert talk[1..] == [];
    assert Lookup(talk[1..], "id") == None;
  }

  /** Polls answering "created", "started", then "done" with a result URL
      give exactly four updates: three progress updates, then "Completed
      successfully" with that URL. */
  lemma SampleRun(apiKey: string, form: Payload.Form, id: string, url: string)
    requires apiKey != "" && id != "" && url != ""
    ensures Clocked(SampleEnv(id, url))
    ensures var r := CreateTalk(apiKey, form, SampleEnv(id, url));
      && r.polls == 3
      && |r.updates| == 4
      && IsProgress(r.updates[0]) && IsProgress(r.updates[1]) && IsProgress(r.updates[2])
      && r.updates[3].status == "Completed successfully"
      && r.updates[3].resultUrl == JStr(url)
  {
    var env := SampleEnv(id, url);
    SampleStatuses(id, url);
    var ms: Members := [("id", JStr(id))];
    assert Created(apiKey, form, env) == Some(ms);
    RunFromCreated(apiKey, form, env, ms);
    SampleStops(id, url);
    SampleLoop(id, url, CreationLog(JObj(ms)), CreateTalk(apiKey, form, env));
  }

  lemma SampleLoop(id: string, url: string, log: string, r: Trace)
    requires url != ""
    requires RunOfLoop(SampleEnv(id, url), JStr(id), log, r)
    ensures && r.polls == 3
            && |r.updates| == 4
            && IsProgress(r.updates[0]) && IsProgress(r.updates[1]) && IsProgress(r.updates[2])
            && r.updates[3].status == "Completed successfully"
            && r.updates[3].resultUrl == JStr(url)
  {
    SampleCount(id, url, log, r);
    SampleLast(id, url, log, r);
    ProgressReported(SampleEnv(id, url), JStr(id), log, r.updates, 0);
    ProgressReported(SampleEnv(id, url), JStr(id), log, r.updates, 1);
    ProgressReported(SampleEnv(id, url), JStr(id), log, r.updates, 2);
  }

  /** An update that reports a poll is a progress update. */
  lemma ProgressReported(env: Env, id: Json, log: string, updates: seq<Update>, i: nat)
    requires ReportsPolls(env, id, 0, log, updates)
    requires i < |updates| - 1
    ensures IsProgress(updates[i])
  {
  }

  lemma SampleCount(id: string, url: string, log: string, r: Trace)
    requires url != ""
    requires RunOfLoop(SampleEnv(id, url), JStr(id), log, r)
    ensures r.polls == 3 && |r.updates| == 4
  {
    var env := SampleEnv(id, url);
    SampleStops(id, url);
    StopsAtUnique(env, 0, r.polls, 3);
    assert !Crashed(env, 0, 3);
  }

  lemma SampleLast(id: string, url: string, log: string, r: Trace)
    requires url != ""
    requires RunOfLoop(SampleEnv(id, url), JStr(id), log, r)
    requires r.polls == 3 && |r.updates| == 4
    ensures r.updates[3].status == "Completed successfully"
    ensures r.updates[3].resultUrl == JStr(url)
  {
    var env := SampleEnv(id, url);
    SampleStatuses(id, url);
    assert env.poll(2) == Returned(JObj(DoneBody(url)));
    assert Succeeds(DoneBody(url));
  }

  lemma SampleStops(id: string, url: string)
    ensures StopsAt(SampleEnv(id, url), 0, 3)
  {
    var env := SampleEnv(id, url);
    SampleStatuses(id, url);
    assert Continues(env.poll(0)) && Continues(env.poll(1)) && !Continues(env.poll(2));
  }
}

=== FILE: text.dfy ===
/** The handful of Python string operations the model relies on: `str.isspace`,
    `str.strip`, `str.lower`, the `in` substring test, and decimal and
    hexadecimal rendering of integers. */
module Text {

  /** Python's `str.isspace` for one character: the Unicode white-space
      characters plus the ASCII separators 0x1C-0x1F. */
  predicate IsSpace(c: char) {
    || c == ' '
    || ('\t' <= c <= '\r')
    || ('\U{1c}' <= c <= '\U{1f}')
    || c == '\U{85}'
    || c == '\U{a0}'
    || c == '\U{1680}'
    || ('\U{2000}' <= c <= '\U{200a}')
    || c == '\U{2028}'
    || c == '\U{2029}'
    || c == '\U{202f}'
    || c == '\U{205f}'
    || c == '\U{3000}'
  }

  /** `s.lstrip()` */
  function StripLeft(s: string): (r: string)
    ensures |r| <= |s| && r == s[|s| - |r|..]
    ensures r != [] ==> !IsSpace(r[0])
  {
    if s != [] && IsSpace(s[0]) then StripLeft(s[1..]) else s
  }

  /** `s.rstrip()` */
  function StripRight(s: string): (r: string)
    ensures r <= s
    ensures r != [] ==> !IsSpace(r[|r| - 1])
  {
    if s != [] && IsSpace(s[|s| - 1]) then StripRight(s[..|s| - 1]) else s
  }

  /** `s.strip()` */
  function Strip(s: string): string {
    StripRight(StripLeft(s))
  }

  predicate AllSpace(s: string) {
    forall i :: 0 <= i < |s| ==> IsSpace(s[i])
  }

  /** `not s.rstrip()` holds exactly for the strings made of white space only. */
  lemma {:induction false} StripRightEmpty(s: string)
    ensures StripRight(s) == [] <==> AllSpace(s)
    decreases |s|
  {
    if s != [] && IsSpace(s[|s| - 1]) {
      var t := s[..|s| - 1];
      StripRightEmpty(t);
      assert AllSpace(s) <==> AllSpace(t) by {
        if AllSpace(t) {
          forall i | 0 <= i < |s| ensures IsSpace(s[i]) {
            if i < |t| { assert s[i] == t[i]; }
          }
        }
        if AllSpace(s) {
          forall i | 0 <= i < |t| ensures IsSpace(t[i]) { assert t[i] == s[i]; }
        }
      }
    } else if s != [] {
      assert !IsSpace(s[|s| - 1]);
    }
  }

  /** Dropping a leading white-space character keeps a string all white space or not. */
  lemma AllSpaceTail(s: string)
    requires s != [] && IsSpace(s[0])
    ensures AllSpace(s) <==> AllSpace(s[1..])
  {
    if AllSpace(s[1..]) {
      forall i | 0 <= i < |s| ensures IsSpace(s[i]) {
        if i > 0 { assert s[i] == s[1..][i - 1]; }
      }
    }
  }

  /** `not s.lstrip()` holds exactly for the strings made of white space only. */
  lemma {:induction false} StripLeftEmpty(s: string)
    ensures StripLeft(s) == [] <==> AllSpace(s)
    decreases |s|
  {
    if s != [] && IsSpace(s[0]) {
      StripLeftEmpty(s[1..]);
      AllSpaceTail(s);
    } else if s != [] {
      assert !IsSpace(s[0]);
    }
  }

  /** `not s.strip()` holds exactly for the strings made of white space only. */
  lemma StripEmpty(s: string)
    ensures Strip(s) == [] <==> AllSpace(s)
  {
    var l := StripLeft(s);
    StripRightEmpty(l);
    StripLeftEmpty(s);
    if l != [] {
      assert !IsSpace(l[0]);
    }
  }

  /** Python's `str.lower` on one character; only the ASCII letters are mapped. */
  function LowerChar(c: char): char {
    if 'A' <= c <= 'Z' then (c as int - 'A' as int + 'a' as int) as char else c
  }

  /** `s.lower()`, character by character: no upper-case ASCII letter is
      left, and every other character keeps its place and value. */
  function Lower(s: string): (r: string)
    ensures |r| == |s|
    ensures forall c :: c in r ==> !('A' <= c <= 'Z')
    ensures forall i :: 0 <= i < |s| && !('A' <= s[i] <= 'Z') ==> r[i] == s[i]
    ensures forall i :: 0 <= i < |s| && 'A' <= s[i] <= 'Z' ==> r[i] as int == s[i] as int + 32
  {
    seq(|s|, i requires 0 <= i < |s| => LowerChar(s[i]))
  }

  /** Lower-casing twice is lower-casing once. */
  lemma LowerIdempotent(s: string)
    ensures Lower(Lower(s)) == Lower(s)
  {
  }

  /** `sub` occurs in `s` starting at position `i`. */
  predicate OccursAt(s: string, sub: string, i: nat) {
    i + |sub| <= |s| && s[i..i + |sub|] == sub
  }

  /** Python's `sub in s`. */
  predicate Contains(s: string, sub: string) {
    exists i: nat :: i <= |s| && OccursAt(s, sub, i)
  }

  /** Characters a printable ASCII text may hold: `' '`..`'~'` and the line break. */
  predicate Printable(s: string) {
    forall c :: c in s ==> ' ' <= c <= '~' || c == '\n'
  }

  function Digit(d: nat): (c: char)
    requires d < 16
    ensures '0' <= c <= '9' || 'a' <= c <= 'f'
  {
    "0123456789abcdef"[d]
  }

  /** `str(n)` for a natural number. */
  function NatDecimal(n: nat): (r: string)
    ensures 1 <= |r|
    ensures forall c :: c in r ==> '0' <= c <= '9'
  {
    if n < 10 then [Digit(n)] else NatDecimal(n / 10) + [Digit(n % 10)]
  }

  /** `str(i)` for an integer. */
  function IntDecimal(i: int): (r: string)
    ensures Printable(r)
  {
    if i < 0 then "-" + NatDecimal(-i) else NatDecimal(i)
  }

  /** `format(n, '04x')`: four lower-case hexadecimal digits. */
  function Hex4(n: nat): (r: string)
    requires n < 0x1_0000
    ensures |r| == 4
    ensures forall c :: c in r ==> '0' <= c <= '9' || 'a' <= c <= 'f'
  {
    [Digit(n / 0x1000), Digit(n / 0x100 % 16), Digit(n / 16 % 16), Digit(n % 16)]
  }
}
